=== FILE: README.md ===
# daemonize, modelled in Dafny

`daemonize` runs a program as a daemon. It reads the options `-F`
(stay in the foreground), `-g group`, `-p pidfile` and `-u user`. It then
takes these steps:

- resolves the target user and group;
- builds a one-entry environment `HOME=<dir>`;
- opens the PID file while it still has its original privileges;
- switches to the target group and then to the target user, setting the
  supplementary groups on the way;
- detaches with `daemon(0, 0)`;
- writes the pid of the process left running into the PID file;
- finally `execve`s the program with the remaining operands.

This project models that core as pure functions. Every run is a function
of the preferences, the identity databases and the outcomes of the system
calls. It returns the exit status, or the fact that the process image was
replaced, together with the ordered trace of observable effects. Once
`daemon(0, 0)` succeeds, the invoking process has already exited with 0
inside `daemon`, so the run follows the child that carries on; the status
the invoking process reports is given separately by `CallerEnding`. The
trace records the allocation and the `free` of the argument vector, of the
program copy and of the HOME string. It also records the PID file's open,
write and close, every `set*id`/`setgroups` call, `daemon` and `execve`.
The gid buffer of `_prefs_setgroups` is not recorded (see "Left out").

Modules (one file each):

| module | models |
|---|---|
| `Wrappers` | `Option`, used for NULL pointers and failed lookups |
| `Identity` | `struct passwd`, `struct group` and the lookups `getpwnam`, `getpwuid`, `getgrnam`, `getgrgid`, plus the `getgrent` enumeration |
| `System` | the answers of the operating system to one run: one outcome per call, the real uid, and the pids |
| `Text` | the `"%u\n"` PID line, and the `snprintf` that builds `HOME=dir` |
| `Effects` | the trace of effects, with acquire/release counting per resource and the projection `Select` |
| `SupplementaryGroups` | `_prefs_setgroups` (src/daemonize.c:167-197) |
| `Privileges` | `_daemonize_prefs` (src/daemonize.c:88-165), written as a chain of stages |
| `Transition` | `daemonize` (src/daemonize.c:39-70) |
| `CommandLine` | `main` and `_usage` (src/main.c:36-77) |

What the main lemmas relate:

- `ApplyPrefsEffects` proves that `ApplyPrefs`, the chain of stages, makes
  exactly the effects of the flat sequence `ExpectedTrace`. The outcome of
  `ApplyPrefs` is also stated through `ReachesOpen`,
  `ReachesPrivilegeDrop` and `Succeeds`, which are read directly off the
  inputs.
- Resource balance is stated by comparing the `Acquired` and `Released`
  counts of each resource.
- The order of effects is stated with the `Phase` rank of each effect.
- `PrefsSetGroups`, the loop of `_prefs_setgroups`, is proved equal to
  the function `SupplementaryList`. The lemmas on that list count its
  entries (`Matches`) and characterise its members (an `exists` over the
  enumeration).
- The option fold of `main` is stated by indices: the last occurrence of
  an option wins, and an unknown option ends the run.

Points where the code behaves in ways a reader might not expect:

- `setgid`/`setegid` run *before* `setgroups` (src/daemonize.c:132-146).
  `IdentityChangesOfRun` and `FullRunOrder` state this order.
- The gid list keeps one entry per matching `gr_mem` entry, duplicates
  included (src/daemonize.c:177-190, `MemberGidsCount`).
- When a `realloc` of the group scan fails, `_prefs_setgroups` returns
  before `endgrent` and `setgroups`. The run goes on to `setuid` with the
  supplementary groups unchanged (`SetGroupsCall`,
  `PrivilegeFailuresNonFatal`).
- The strdup-failure exit (src/daemonize.c:57-61) frees `args` but not
  `env[0]`. `StrdupFailureLeaksHome` proves that this exit holds exactly
  the HOME string. `ExitReleasesAll` proves that every other returning run
  releases everything.
- The code never changes the working directory itself (only
  `daemon(0, 0)` does) and has no option besides `-F`, `-g`, `-p` and `-u`.

## Model

| member | source | states |
|---|---|---|
| Text.Decimal | src/daemonize.c:159 | `%u` of a pid is a non-empty string of decimal digits with no leading zero, except for the pid 0 itself |
| Text.ParseDecimalInvertsDecimal | src/daemonize.c:159 | the PID line's digits read back as the same pid (round trip) |
| Text.Snprintf | src/daemonize.c:123 | snprintf keeps exactly the first size - 1 characters of the text, or all of it when it fits, and nothing for size 0 |
| Text.FormatHome | src/daemonize.c:118-123 | the buffer of sizeof("HOME=") + strlen(dir) bytes holds exactly "HOME=" followed by the whole directory, with no truncation |
| Effects.CStringsOfTerminated | src/daemonize.c:62-64 | a vector of non-NULL strings closed by NULL holds exactly those strings, in order |
| SupplementaryGroups.SupplementaryList | src/daemonize.c:176-192 | the scan gives up exactly when the failing realloc comes at or before the last matching entry; otherwise the list has one gid per gr_mem entry that names the user |
| SupplementaryGroups.PrefsSetGroups | src/daemonize.c:167-197 | the nested loop over getgrent and gr_mem, with its realloc failure exit, computes exactly SupplementaryList |
| SupplementaryGroups.MemberGidsMembership | src/daemonize.c:177-190 | a gid is in the list iff some enumerated group with that gid lists the user among its members |
| SupplementaryGroups.MemberGidsCount | src/daemonize.c:178-189 | the list's length is the number of gr_mem entries equal to the user name, counted over all groups, so duplicates are kept |
| SupplementaryGroups.MemberGidsAppend | src/daemonize.c:177-190 | the list follows the enumeration order: the list of a concatenation is the concatenation of the lists |
| Privileges.Resolve | src/daemonize.c:98-114 | the lookups succeed iff the named user exists, the named group exists, and, when no group is named, the named user's primary group exists; uid is set iff a user is named, and gid is the named group's gid or else the user's gid |
| Privileges.PrepareHome | src/daemonize.c:118-124 | fails only when a non-NULL, non-empty home needs a buffer and malloc fails; otherwise env[0] is "HOME=dir" or stays NULL, and only that buffer is held |
| Privileges.Cleanup | src/daemonize.c:148-154 | the fatal cleanup keeps the trace so far and appends only releases, one per held resource (the open PID file, the set HOME string), leaving everything released, in source order |
| Privileges.OpenPidFileStep | src/daemonize.c:125-130 | aborts iff a PID file is named and fopen fails, after recording the failed fopen, with everything released; otherwise it appends the fopen of a named file and holds the file open iff it is named |
| Privileges.DropPrivileges | src/daemonize.c:131-146 | appends exactly IdentityChanges (setgid, setegid, supplementary groups, setuid, seteuid as named) and holds no new resource |
| Privileges.Detach | src/daemonize.c:147-154 | aborts iff detaching is asked and daemon fails, after recording the failed daemon call, with everything released; otherwise it appends the daemon call if asked and holds the same resources |
| Privileges.WritePidFile | src/daemonize.c:155-163 | an open PID file gets the decimal pid of the running process and a newline, then is closed; nothing else is appended, and afterwards nothing but HOME is held |
| Privileges.ApplyPrefs | src/daemonize.c:88-165 | status is 0 or 2, and 0 iff the lookups, the HOME malloc, the fopen (if named) and the daemon (if asked) succeed; no effect before the fopen stage; effects in source order; status 2 leaves everything released, the HOME string included (env[0] is freed and left dangling, and daemonize returns at lines 52-55 without reading it); status 0 leaves env[0] = HOME of the acting entry and holds only it |
| Privileges.ApplyPrefsEffects | src/daemonize.c:88-165 | the stage machine's trace equals the flat reference ExpectedTrace, case by case on how far the run gets |
| Privileges.IdentityChangesOfRun | src/daemonize.c:131-146 | the identity changes of a run are none unless it gets past the PID file, else setgid/setegid to the target gid, then for a user the setgroups call, setuid and seteuid to the user's uid |
| Privileges.PidFileOfRun | src/daemonize.c:125-163 | the PID file is opened once the identity and HOME are settled; if opened, it is closed unwritten after a failed detach, or else written with the decimal pid of the running process and a newline, and then closed |
| Privileges.LookupFailuresReturnEarly | src/daemonize.c:99-117 | each failed lookup (user, group, primary group, invoking user) returns 2 with no effect at all |
| Privileges.PrivilegeFailuresNonFatal | src/daemonize.c:131-163 | the outcomes of setgid, setegid, realloc, setgroups, setuid, seteuid and fclose never change the status |
| Privileges.FullRunOrder | src/daemonize.c:88-165 | with every option set, the effects are exactly: HOME allocation, fopen, setgid, setegid, setgroups, setuid, seteuid, daemon, PID write, fclose |
| Transition.ExecArgs | src/daemonize.c:57-64 | args has argc + 2 slots: the program copy, the argc operands in order, then NULL |
| Transition.ExecArgsStrings | src/daemonize.c:57-65 | the program receives as its argv exactly its name followed by the operands |
| Transition.EnvStrings | src/daemonize.c:43 | the environment is exactly the one HOME string if set, and empty otherwise |
| Transition.Launch | src/daemonize.c:52-69 | after the args malloc, the process image is replaced iff the preferences succeed, strdup succeeds and execve succeeds; every other path returns 2 |
| Transition.Daemonize | src/daemonize.c:39-70 | the run ends either replaced or with 2; it is replaced iff every fatal step and the execve succeed; it has no effect iff the args malloc fails; after a successful daemon(0, 0) this is the ending of the child that carries on |
| Transition.CallerOfDaemonize | src/daemonize.c:39-70 | the invoking process ends with 0 iff the run detaches (daemon(0, 0) succeeds and its parent exits inside daemon); otherwise it is replaced iff every fatal step and the execve succeed, and returns 2 in every other case |
| Transition.PrefsStepContract | src/daemonize.c:52-56 | what daemonize relies on from _daemonize_prefs: status 0 or 2, no live HOME string after a failure (env[0] is freed there and never read again), no execve, only the returned HOME string held; status 0 iff the preferences succeed |
| Privileges.DetachOfRun | src/daemonize.c:147-154 | a successful daemon call is recorded iff the run gets past the PID file, detaching is asked and daemon succeeds |
| Transition.ExecOfRun | src/daemonize.c:50-65 | execve happens at most once, exactly when the run gets past strdup, with the program, its argument vector and HOME of the acting entry |
| Transition.ExitReleasesAll | src/daemonize.c:50-69 | every returning run, apart from the strdup failure with HOME set, frees the argument vector, the program copy and HOME, and closes the PID file |
| Transition.StrdupFailureLeaksHome | src/daemonize.c:57-61 | when strdup fails after HOME was set, the run returns 2 holding exactly one resource, the HOME string |
| Transition.ExecHoldsOnlyItsVectors | src/daemonize.c:57-65 | when the image is replaced, the PID file is already closed, and the only things held are args, the program copy and HOME if set |
| CommandLine.ApplyOption | src/main.c:44-60 | -F clears the detach flag, -g/-p/-u set their own field to optarg and leave the others alone, and any other character selects _usage |
| CommandLine.ParseFails | src/main.c:43-60 | the option loop ends in _usage iff some option is not one of F, g, p, u |
| CommandLine.DaemonFlag | src/main.c:42-48 | the detach flag stays set iff no -F occurs |
| CommandLine.FieldKept | src/main.c:41-60 | a field that no option names keeps its value (NULL from the memset) |
| CommandLine.FieldIsLast | src/main.c:49-57 | a field named several times takes the argument of its last occurrence |
| CommandLine.ParsedPrefs | src/main.c:41-60 | the preferences passed on: detach unless -F occurs; each of -g, -p, -u is NULL when absent, else the argument of its last occurrence |
| CommandLine.Main | src/main.c:36-65 | exits with 1 and no effect iff an option is unknown or no operand is left; otherwise it is replaced or exits with 2; after a successful daemon(0, 0) this is the child's ending |
| CommandLine.MainCallerStatus | src/main.c:36-65 | the invoking process exits with 1 on an unknown option or a missing operand, with 0 when daemonize detaches, is replaced when every fatal step and the execve succeed, and exits with 2 otherwise |
| CommandLine.MainExecsOperands | src/main.c:61-64 | the program executed is argv[optind], with argv[optind..] as its argument vector, and only when daemonize gets past strdup |
| CommandLine.OperandVector | src/main.c:63-64 | the vector built from argv[optind] and the argc - optind - 1 operands after it holds exactly argv[optind..] |

## Left out

- Diagnostics: the text of `_daemonize_error`, `strerror`, the `_usage` message and the `DEBUG` trace are not modelled. Only the statuses they return are: 2 for `_daemonize_error`, 1 for `_usage`.
- `getopt` itself is not modelled. Its results are inputs: the options it returns, in order, and the `optind` it leaves. Clustering, `--` and permutation are the C library's business.
- The `env != NULL` test of src/daemonize.c:118 is not modelled. `daemonize` always passes its own array, so the test always holds.
- The gid buffer of `_prefs_setgroups` is not part of the trace: its `realloc` calls (src/daemonize.c:182) and its `free` on both paths (src/daemonize.c:185 and 193) are invisible outside the function, and only the first failing `realloc` is an input.
- Byte sizes are not modelled. The argument vector is recorded by its slot count (argc + 2). The HOME buffer is recorded by its size in characters (sizeof(home) + strlen(dir)). `sizeof(gid_t)` is not modelled.
- Integer widths are not modelled. `uid_t`, `gid_t` and pids are unbounded naturals. `argc` is an unbounded integer, and `argc + 2` cannot overflow.
- `daemon(0, 0)` (fork, setsid, chdir, redirecting the standard streams) is one outcome. The pid of the child that carries on is one further input. The fork is not modelled as two processes: the run follows the child, and `CallerEnding` gives the invoking process's status.
- `execve` is one outcome. Success means the image is replaced. What the new program does is not modelled.
- `setgroupent`/`endgrent` and the static storage of the `getpw*`/`getgr*` results are not recorded as effects.
- The identity databases are independent inputs. Nothing ties the by-name tables to the by-id tables or to the enumeration.
- `Privileges.ApplyPrefs`: the returned `home` is the live HOME string, not the value of the `env[0]` pointer; after status 2 it is `None` although `env[0]` still points to the freed block (src/daemonize.c:128, 152). The model does not track dangling pointers, which `daemonize` never reads.
- `Privileges.PidFileOfRun`: `fprintf` is assumed to write the PID line in full. Its return value is ignored by the code (the XXX at line 158), and a short write is not modelled.
- `SupplementaryGroups.SupplementaryList`: only the first failing `realloc` of the scan is an input (`reallocFailsAt`), since the scan stops there.
- `Transition.Daemonize`: after a successful `daemon(0, 0)` its ending and the rest of its trace belong to the child that carries on. The invoking process has already exited with 0 inside `daemon`, so a later 2 from strdup or execve is the child's status, not the caller's (`Transition.CallerOfDaemonize` states the caller's view).
- `CommandLine.Main`: the same holds for `main`. A 2 after a successful `daemon(0, 0)` is the child's status; `CommandLine.MainCallerStatus` states the status of the invoking process.

=== FILE: command_line.dfy ===
/** main (src/main.c:36-65): read the options into the preferences, then
    hand the first operand and the rest to daemonize. */
module CommandLine {
  import opened Wrappers
  import opened Identity
  import opened System
  import opened Effects
  import opened Privileges
  import opened Transition

  /** One option as getopt(argc, argv, "Fg:p:u:") returns it: the option
      character and optarg, NULL for an option without an argument. An
      unknown option, or one missing its argument, comes back as a
      character outside the optstring. */
  datatype Getopt = Getopt(opt: char, optarg: Option<string>)

  /** Lines 41-42: every field zero, except that the program detaches. */
  const DefaultPrefs: DaemonizePrefs := DaemonizePrefs(true, None, None, None)

  /** The exit status of _usage (lines 71-77). */
  const UsageStatus: int := 1

  predicate Recognised(c: char)
  {
    c == 'F' || c == 'g' || c == 'p' || c == 'u'
  }

  /** The options that take an argument, and the field each one sets. */
  predicate TakesArgument(c: char)
  {
    c == 'g' || c == 'p' || c == 'u'
  }

  function Field(p: DaemonizePrefs, c: char): Option<string>
    requires TakesArgument(c)
  {
    if c == 'g' then p.groupname else if c == 'p' then p.pidfile else p.username
  }

  /** Lines 44-60: one case of the switch; None for the default case. */
  function ApplyOption(p: DaemonizePrefs, o: Getopt): (r: Option<DaemonizePrefs>)
    ensures r.Some? <==> Recognised(o.opt)
    ensures r.Some? && TakesArgument(o.opt) ==> Field(r.value, o.opt) == o.optarg
    ensures r.Some? ==> forall c :: TakesArgument(c) && c != o.opt ==> Field(r.value, c) == Field(p, c)
    ensures r.Some? ==> r.value.daemon == (p.daemon && o.opt != 'F')
  {
    match o.opt
    case 'F' => Some(p.(daemon := false))
    case 'g' => Some(p.(groupname := o.optarg))
    case 'p' => Some(p.(pidfile := o.optarg))
    case 'u' => Some(p.(username := o.optarg))
    case _ => None
  }

  /** The getopt loop of line 43, from the preferences p. */
  function ParseFrom(p: DaemonizePrefs, tokens: seq<Getopt>): Option<DaemonizePrefs>
    decreases |tokens|
  {
    if tokens == [] then Some(p)
    else
      match ApplyOption(p, tokens[0])
      case None => None
      case Some(q) => ParseFrom(q, tokens[1..])
  }

  function ParseOptions(tokens: seq<Getopt>): Option<DaemonizePrefs>
  {
    ParseFrom(DefaultPrefs, tokens)
  }

  /** main(argc, argv) with argc == |argv|, given the options getopt
      returns and the optind it leaves. After a successful daemon(0, 0)
      the Run follows the child; what the caller sees is CallerEnding. */
  function Main(argv: seq<string>, tokens: seq<Getopt>, optind: int, db: IdentityDb, os: Outcomes): (r: Run)
    requires 0 <= optind
    ensures r.ending == Replaced || r.ending == Exited(UsageStatus) || r.ending == Exited(2)
    ensures r.ending == Exited(UsageStatus) <==> ParseOptions(tokens).None? || optind + 1 > |argv|
    ensures r.ending == Exited(UsageStatus) ==> r.trace == []
  {
    match ParseOptions(tokens)
    case None => Run(Exited(UsageStatus), [])
    case Some(p) =>
      if optind + 1 > |argv| then Run(Exited(UsageStatus), [])
      else Daemonize(Some(p), argv[optind], |argv| - optind - 1, argv[optind + 1..], db, os)
  }

  // ---------------------------------------------------------------------
  // The options.
  // ---------------------------------------------------------------------

  /** The loop ends in _usage exactly when some option is not one of F, g, p, u. */
  lemma {:induction false} ParseFails(p: DaemonizePrefs, tokens: seq<Getopt>)
    ensures ParseFrom(p, tokens).None? <==> exists i :: 0 <= i < |tokens| && !Recognised(tokens[i].opt)
    decreases |tokens|
  {
    if tokens != [] {
      if Recognised(tokens[0].opt) {
        ParseFails(ApplyOption(p, tokens[0]).value, tokens[1..]);
        if exists i :: 0 <= i < |tokens| && !Recognised(tokens[i].opt) {
          var i :| 0 <= i < |tokens| && !Recognised(tokens[i].opt);
          assert tokens[1..][i - 1] == tokens[i];
        }
      } else {
        assert !Recognised(tokens[0].opt);
      }
    }
  }

  /** -F anywhere turns the detach off; nothing else does. */
  lemma {:induction false} DaemonFlag(p: DaemonizePrefs, tokens: seq<Getopt>)
    requires ParseFrom(p, tokens).Some?
    ensures ParseFrom(p, tokens).value.daemon <==> p.daemon && forall i :: 0 <= i < |tokens| ==> tokens[i].opt != 'F'
    decreases |tokens|
  {
    if tokens != [] {
      var q := ApplyOption(p, tokens[0]).value;
      DaemonFlag(q, tokens[1..]);
      assert forall i :: 1 <= i < |tokens| ==> tokens[i] == tokens[1..][i - 1];
    }
  }

  /** A field no option names keeps its value. */
  lemma {:induction false} FieldKept(p: DaemonizePrefs, tokens: seq<Getopt>, c: char)
    requires TakesArgument(c) && ParseFrom(p, tokens).Some?
    requires forall i :: 0 <= i < |tokens| ==> tokens[i].opt != c
    ensures Field(ParseFrom(p, tokens).value, c) == Field(p, c)
    decreases |tokens|
  {
    if tokens != [] {
      var q := ApplyOption(p, tokens[0]).value;
      assert tokens[0].opt != c;
      assert forall i :: 0 <= i < |tokens[1..]| ==> tokens[1..][i] == tokens[i + 1];
      FieldKept(q, tokens[1..], c);
    }
  }

  /** A field named more than once takes the argument of its last option. */
  lemma {:induction false} FieldIsLast(p: DaemonizePrefs, tokens: seq<Getopt>, c: char, i: int)
    requires TakesArgument(c) && ParseFrom(p, tokens).Some?
    requires 0 <= i < |tokens| && tokens[i].opt == c
    requires forall j :: i < j < |tokens| ==> tokens[j].opt != c
    ensures Field(ParseFrom(p, tokens).value, c) == tokens[i].optarg
    decreases |tokens|
  {
    var q := ApplyOption(p, tokens[0]).value;
    var rest := tokens[1..];
    if i == 0 {
      assert forall j :: 0 <= j < |rest| ==> rest[j] == tokens[j + 1];
      FieldKept(q, rest, c);
    } else {
      assert rest[i - 1] == tokens[i];
      assert forall j :: i - 1 < j < |rest| ==> rest[j] == tokens[j + 1];
      FieldIsLast(q, rest, c, i - 1);
    }
  }

  /** The preferences main passes on: detach unless -F is given, and each
      of -g, -p, -u sets its field to the argument of its last occurrence,
      NULL when it does not occur. */
  lemma ParsedPrefs(tokens: seq<Getopt>, c: char)
    requires ParseOptions(tokens).Some? && TakesArgument(c)
    ensures ParseOptions(tokens).value.daemon <==> forall i :: 0 <= i < |tokens| ==> tokens[i].opt != 'F'
    ensures (forall i :: 0 <= i < |tokens| ==> tokens[i].opt != c) ==> Field(ParseOptions(tokens).value, c) == None
    ensures forall i :: 0 <= i < |tokens| && tokens[i].opt == c && (forall j :: i < j < |tokens| ==> tokens[j].opt != c)
              ==> Field(ParseOptions(tokens).value, c) == tokens[i].optarg
  {
    DaemonFlag(DefaultPrefs, tokens);
    if forall i :: 0 <= i < |tokens| ==> tokens[i].opt != c {
      FieldKept(DefaultPrefs, tokens, c);
    }
    forall i | 0 <= i < |tokens| && tokens[i].opt == c && (forall j :: i < j < |tokens| ==> tokens[j].opt != c)
      ensures Field(ParseOptions(tokens).value, c) == tokens[i].optarg
    {
      FieldIsLast(DefaultPrefs, tokens, c, i);
    }
  }

  // ---------------------------------------------------------------------
  // The whole program.
  // ---------------------------------------------------------------------

  /** Once the options parse and an operand is left, the first operand is
      executed with the operands from it on as its argument vector. */
  lemma MainExecsOperands(argv: seq<string>, tokens: seq<Getopt>, optind: int, db: IdentityDb, os: Outcomes)
    requires 0 <= optind < |argv| && ParseOptions(tokens).Some?
    ensures var p := Some(ParseOptions(tokens).value);
      Select(Main(argv, tokens, optind, db, os).trace, IsExec)
      == (if ReachesExec(p, db, os)
          then [Execve(argv[optind], ExecArgs(argv[optind], argv[optind + 1..]), EnvVector(ExecHome(p, db, os)))]
          else [])
    ensures CStrings(ExecArgs(argv[optind], argv[optind + 1..])) == argv[optind..]
  {
    var p := ParseOptions(tokens).value;
    var operands := argv[optind + 1..];
    MainCallsDaemonize(argv, tokens, optind, db, os);
    ExecOfRun(Some(p), argv[optind], |operands|, operands, db, os);
    assert operands[..|operands|] == operands;
    OperandVector(argv, optind);
  }

  /** The status the invoker of main sees: 1 for a usage error, 0 once
      the run has detached, else replaced or 2. */
  lemma MainCallerStatus(argv: seq<string>, tokens: seq<Getopt>, optind: int, db: IdentityDb, os: Outcomes)
    requires 0 <= optind
    ensures CallerEnding(Main(argv, tokens, optind, db, os))
         == if ParseOptions(tokens).None? || optind + 1 > |argv| then Exited(UsageStatus)
            else if Detaches(ParseOptions(tokens), db, os) then Exited(0)
            else if ReachesExec(ParseOptions(tokens), db, os) && os.execveOk then Replaced
            else Exited(2)
  {
    if ParseOptions(tokens).Some? && optind + 1 <= |argv| {
      MainCallsDaemonize(argv, tokens, optind, db, os);
      CallerOfDaemonize(ParseOptions(tokens), argv[optind], |argv| - optind - 1, argv[optind + 1..], db, os);
    }
  }

  lemma MainCallsDaemonize(argv: seq<string>, tokens: seq<Getopt>, optind: int, db: IdentityDb, os: Outcomes)
    requires 0 <= optind < |argv| && ParseOptions(tokens).Some?
    ensures Main(argv, tokens, optind, db, os)
         == Daemonize(ParseOptions(tokens), argv[optind], |argv| - optind - 1, argv[optind + 1..], db, os)
  {
  }

  /** The vector built from argv[optind] and the argc - optind - 1 operands after it. */
  lemma OperandVector(argv: seq<string>, optind: int)
    requires 0 <= optind < |argv|
    ensures CStrings(ExecArgs(argv[optind], argv[optind + 1..])) == argv[optind..]
  {
    ExecArgsStrings(argv[optind], argv[optind + 1..]);
    assert [argv[optind]] + argv[optind + 1..] == argv[optind..];
  }
}

=== FILE: effects.dfy ===
/** The observable effects of one run of the program, in the order they
    happen, and the resources they acquire and release. */
module Effects {
  import opened Wrappers
  import opened Identity

  datatype Effect =
    | AllocArgs(slots: nat)                  // malloc of the execve argument vector
    | DupProgram(copy: string)               // strdup(program), stored in args[0]
    | AllocHome(size: nat, text: string)     // malloc + snprintf of the HOME string
    | OpenPidFile(path: string, ok: bool)    // fopen(pidfile, "w")
    | SetGid(gid: Gid, ok: bool)
    | SetEGid(gid: Gid, ok: bool)
    | SetGroups(gids: seq<Gid>, ok: bool)
    | SetUid(uid: Uid, ok: bool)
    | SetEUid(uid: Uid, ok: bool)
    | Daemon(ok: bool)                       // daemon(0, 0)
    | WritePid(text: string)                 // fprintf(fp, "%u\n", getpid())
    | ClosePidFile(ok: bool)                 // fclose(fp): the handle is gone whatever it returns
    | FreeHome                               // free(env[0]) while it points to the HOME string
    | Execve(path: string, argv: seq<Option<string>>, envp: seq<Option<string>>)
    | FreeProgram                            // free(args[0])
    | FreeArgs                               // free(args)

  /** What a run owns and must give back: heap blocks and the PID file handle. */
  datatype Resource = ArgsVector | ProgramCopy | HomeString | PidFile

  function Acquires(e: Effect): Option<Resource>
  {
    match e
    case AllocArgs(_) => Some(ArgsVector)
    case DupProgram(_) => Some(ProgramCopy)
    case AllocHome(_, _) => Some(HomeString)
    case OpenPidFile(_, ok) => if ok then Some(PidFile) else None
    case _ => None
  }

  function Releases(e: Effect): Option<Resource>
  {
    match e
    case FreeArgs => Some(ArgsVector)
    case FreeProgram => Some(ProgramCopy)
    case FreeHome => Some(HomeString)
    case ClosePidFile(_) => Some(PidFile)
    case _ => None
  }

  /** How many times the trace acquires r. */
  function Acquired(t: seq<Effect>, r: Resource): nat
  {
    if t == [] then 0
    else Acquired(t[..|t| - 1], r) + (if Acquires(t[|t| - 1]) == Some(r) then 1 else 0)
  }

  /** How many times the trace releases r. */
  function Released(t: seq<Effect>, r: Resource): nat
  {
    if t == [] then 0
    else Released(t[..|t| - 1], r) + (if Releases(t[|t| - 1]) == Some(r) then 1 else 0)
  }

  lemma {:induction false} CountsAppend(a: seq<Effect>, b: seq<Effect>, r: Resource)
    ensures Acquired(a + b, r) == Acquired(a, r) + Acquired(b, r)
    ensures Released(a + b, r) == Released(a, r) + Released(b, r)
    decreases |b|
  {
    if b != [] {
      var b' := b[..|b| - 1];
      CountsAppend(a, b', r);
      assert (a + b)[..|a + b| - 1] == a + b';
    } else {
      assert a + b == a;
    }
  }

  /** One more effect changes the counts of the one resource it acquires or releases. */
  lemma CountsSnoc(t: seq<Effect>, e: Effect)
    ensures forall r :: Acquired(t + [e], r) == Acquired(t, r) + (if Acquires(e) == Some(r) then 1 else 0)
    ensures forall r :: Released(t + [e], r) == Released(t, r) + (if Releases(e) == Some(r) then 1 else 0)
  {
    assert (t + [e])[..|t + [e]| - 1] == t;
  }

  /** A single effect counts once for the resource it acquires or releases. */
  lemma CountsOne(e: Effect, r: Resource)
    ensures Acquired([e], r) == (if Acquires(e) == Some(r) then 1 else 0)
    ensures Released([e], r) == (if Releases(e) == Some(r) then 1 else 0)
  {
    assert [e][..0] == [];
  }

  /** Effects that neither acquire nor release leave the counts alone. */
  lemma {:induction false} CountsQuiet(t: seq<Effect>, u: seq<Effect>)
    requires forall i :: 0 <= i < |u| ==> Acquires(u[i]).None? && Releases(u[i]).None?
    ensures forall r :: Acquired(t + u, r) == Acquired(t, r) && Released(t + u, r) == Released(t, r)
    decreases |u|
  {
    if u == [] {
      assert t + u == t;
    } else {
      var u' := u[..|u| - 1];
      CountsQuiet(t, u');
      assert t + u == (t + u') + [u[|u| - 1]];
      CountsSnoc(t + u', u[|u| - 1]);
    }
  }

  /** The trace releases every resource as often as it acquires it. */
  predicate AllReleased(t: seq<Effect>)
  {
    forall r :: Released(t, r) == Acquired(t, r)
  }

  /** The sub-trace of the effects that satisfy keep, in order. */
  function Select(t: seq<Effect>, keep: Effect -> bool): seq<Effect>
  {
    if t == [] then []
    else Select(t[..|t| - 1], keep) + (if keep(t[|t| - 1]) then [t[|t| - 1]] else [])
  }

  /** The sub-trace holds exactly the effects of t that satisfy keep. */
  lemma {:induction false} SelectMembers(t: seq<Effect>, keep: Effect -> bool)
    ensures forall e <- Select(t, keep) :: keep(e) && e in t
    ensures forall e <- t :: keep(e) ==> e in Select(t, keep)
    decreases |t|
  {
    if t != [] {
      var t' := t[..|t| - 1];
      SelectMembers(t', keep);
      assert t == t' + [t[|t| - 1]];
    }
  }

  lemma {:induction false} SelectAppend(a: seq<Effect>, b: seq<Effect>, keep: Effect -> bool)
    ensures Select(a + b, keep) == Select(a, keep) + Select(b, keep)
    decreases |b|
  {
    if b != [] {
      var b' := b[..|b| - 1];
      SelectAppend(a, b', keep);
      assert (a + b)[..|a + b| - 1] == a + b';
    } else {
      assert a + b == a;
    }
  }

  /** A trace none of whose effects satisfy keep selects nothing. */
  lemma {:induction false} SelectNone(t: seq<Effect>, keep: Effect -> bool)
    requires forall i :: 0 <= i < |t| ==> !keep(t[i])
    ensures Select(t, keep) == []
    decreases |t|
  {
    if t != [] {
      SelectNone(t[..|t| - 1], keep);
    }
  }

  /** A trace all of whose effects satisfy keep selects itself. */
  lemma {:induction false} SelectAll(t: seq<Effect>, keep: Effect -> bool)
    requires forall i :: 0 <= i < |t| ==> keep(t[i])
    ensures Select(t, keep) == t
    decreases |t|
  {
    if t != [] {
      SelectAll(t[..|t| - 1], keep);
    }
  }

  /** Selecting from a trace whose only kept effects form its middle part c yields c. */
  lemma SelectMiddle(x: seq<Effect>, c: seq<Effect>, y: seq<Effect>, keep: Effect -> bool)
    requires forall i :: 0 <= i < |x| ==> !keep(x[i])
    requires forall i :: 0 <= i < |c| ==> keep(c[i])
    requires forall i :: 0 <= i < |y| ==> !keep(y[i])
    ensures Select(x + c + y, keep) == c
  {
    SelectNone(x, keep);
    SelectAll(c, keep);
    SelectNone(y, keep);
    SelectAppend(x, c, keep);
    assert Select(x + c, keep) == [] + c == c;
    SelectAppend(x + c, y, keep);
    assert Select(x + c + y, keep) == c + [];
  }

  /** Selecting from a trace whose kept effects form two separated parts c1 and c2 yields c1 + c2. */
  lemma SelectTwoParts(x: seq<Effect>, c1: seq<Effect>, m: seq<Effect>, c2: seq<Effect>, y: seq<Effect>, keep: Effect -> bool)
    requires forall i :: 0 <= i < |x| ==> !keep(x[i])
    requires forall i :: 0 <= i < |c1| ==> keep(c1[i])
    requires forall i :: 0 <= i < |m| ==> !keep(m[i])
    requires forall i :: 0 <= i < |c2| ==> keep(c2[i])
    requires forall i :: 0 <= i < |y| ==> !keep(y[i])
    ensures Select(x + c1 + m + c2 + y, keep) == c1 + c2
  {
    var front := x + c1 + m;
    var back := c2 + y;
    SelectMiddle(x, c1, m, keep);
    SelectAll(c2, keep);
    SelectNone(y, keep);
    SelectAppend(c2, y, keep);
    assert Select(back, keep) == c2 + [] == c2;
    SelectAppend(front, back, keep);
    assert Select(front + back, keep) == c1 + c2;
    AppendFiveParts(x, c1, m, c2, y);
  }

  lemma AppendFiveParts(x: seq<Effect>, c1: seq<Effect>, m: seq<Effect>, c2: seq<Effect>, y: seq<Effect>)
    ensures x + c1 + m + c2 + y == (x + c1 + m) + (c2 + y)
    ensures x + c1 + m + c2 + y == x + c1 + (m + c2 + y)
  {
  }

  /** The strings a NULL-terminated C vector holds: its entries before the first NULL. */
  function CStrings(v: seq<Option<string>>): seq<string>
  {
    if v == [] || v[0].None? then [] else [v[0].value] + CStrings(v[1..])
  }

  function SomeEach(xs: seq<string>): (v: seq<Option<string>>)
    ensures |v| == |xs|
    ensures forall i :: 0 <= i < |xs| ==> v[i] == Some(xs[i])
  {
    if xs == [] then [] else [Some(xs[0])] + SomeEach(xs[1..])
  }

  /** A vector of non-NULL pointers closed by a NULL holds exactly those strings. */
  lemma {:induction false} CStringsOfTerminated(xs: seq<string>)
    ensures CStrings(SomeEach(xs) + [None]) == xs
    decreases |xs|
  {
    if xs != [] {
      CStringsOfTerminated(xs[1..]);
      assert (SomeEach(xs) + [None])[1..] == SomeEach(xs[1..]) + [None];
    }
  }
}

=== FILE: identity.dfy ===
/** The system identity databases (passwd and group), as the lookups of
    src/daemonize.c see them. Their answers are oracle inputs: nothing ties
    the by-name tables to the by-id tables or to the enumeration order. */
module Identity {
  import opened Wrappers

  /** uid_t and gid_t; the core never does arithmetic on them. */
  type Uid = nat
  type Gid = nat

  /** The fields of `struct passwd` the core reads. `dir` is None for a NULL pw_dir. */
  datatype Passwd = Passwd(uid: Uid, gid: Gid, dir: Option<string>)

  /** The fields of `struct group` the core reads: gr_gid and the gr_mem list. */
  datatype Group = Group(gid: Gid, members: seq<string>)

  datatype IdentityDb = IdentityDb(
    usersByName: map<string, Passwd>,   // getpwnam
    usersByUid: map<Uid, Passwd>,       // getpwuid
    groupsByName: map<string, Group>,   // getgrnam
    groupsByGid: map<Gid, Group>,       // getgrgid
    groupEnumeration: seq<Group>        // setgroupent / getgrent, in order
  )

  function Find<K, V>(m: map<K, V>, k: K): Option<V>
  {
    if k in m then Some(m[k]) else None
  }

  function GetPwNam(db: IdentityDb, name: string): Option<Passwd>
  {
    Find(db.usersByName, name)
  }

  function GetPwUid(db: IdentityDb, uid: Uid): Option<Passwd>
  {
    Find(db.usersByUid, uid)
  }

  function GetGrNam(db: IdentityDb, name: string): Option<Group>
  {
    Find(db.groupsByName, name)
  }

  function GetGrGid(db: IdentityDb, gid: Gid): Option<Group>
  {
    Find(db.groupsByGid, gid)
  }
}

=== FILE: privileges.dfy ===
/** _daemonize_prefs (src/daemonize.c:88-165): identity resolution, the HOME
    environment, the PID file, the privilege drop and the detach, as a
    sequence of stages over a trace of effects. */
module Privileges {
  import opened Wrappers
  import opened Identity
  import opened System
  import opened Text
  import opened Effects
  import opened SupplementaryGroups

  /** DaemonizePrefs: None stands for a NULL string field. */
  datatype DaemonizePrefs = DaemonizePrefs(
    daemon: bool,
    username: Option<string>,
    groupname: Option<string>,
    pidfile: Option<string>
  )

  // ---------------------------------------------------------------------
  // Reference definitions: what a run should decide, read directly from
  // the preferences, the databases and the call outcomes.
  // ---------------------------------------------------------------------

  /** Every identity lookup the preferences call for finds its record. */
  predicate IdentityResolves(p: DaemonizePrefs, db: IdentityDb)
  {
    && (p.username.Some? ==> p.username.value in db.usersByName)
    && (p.groupname.Some? ==> p.groupname.value in db.groupsByName)
    && (p.username.Some? && p.groupname.None? ==> db.usersByName[p.username.value].gid in db.groupsByGid)
  }

  /** The gid to switch to: the named group's, else the user's primary one. */
  function TargetGid(p: DaemonizePrefs, db: IdentityDb): Gid
    requires IdentityResolves(p, db) && (p.username.Some? || p.groupname.Some?)
  {
    if p.groupname.Some? then db.groupsByName[p.groupname.value].gid
    else db.usersByName[p.username.value].gid
  }

  function TargetUid(p: DaemonizePrefs, db: IdentityDb): Uid
    requires IdentityResolves(p, db) && p.username.Some?
  {
    db.usersByName[p.username.value].uid
  }

  /** The passwd entry HOME comes from: the target user's, else the invoking user's. */
  function Acting(p: DaemonizePrefs, db: IdentityDb, os: Outcomes): Option<Passwd>
  {
    if p.username.Some? then GetPwNam(db, p.username.value) else GetPwUid(db, os.realUid)
  }

  /** A non-NULL, non-empty home directory gives a HOME variable. */
  predicate NeedsHome(pw: Passwd)
  {
    pw.dir.Some? && |pw.dir.value| > 0
  }

  function ExpectedHome(p: DaemonizePrefs, db: IdentityDb, os: Outcomes): Option<string>
  {
    match Acting(p, db, os)
    case Some(pw) => if NeedsHome(pw) then Some(HomePrefix + pw.dir.value) else None
    case None => None
  }

  /** The run gets as far as the fopen of line 126. */
  predicate ReachesOpen(p: DaemonizePrefs, db: IdentityDb, os: Outcomes)
  {
    && IdentityResolves(p, db)
    && Acting(p, db, os).Some?
    && (NeedsHome(Acting(p, db, os).value) ==> os.homeMallocOk)
  }

  /** The run gets as far as line 131. */
  predicate ReachesPrivilegeDrop(p: DaemonizePrefs, db: IdentityDb, os: Outcomes)
  {
    ReachesOpen(p, db, os) && (p.pidfile.Some? ==> os.fopenOk)
  }

  /** The run returns 0. */
  predicate Succeeds(p: DaemonizePrefs, db: IdentityDb, os: Outcomes)
  {
    ReachesPrivilegeDrop(p, db, os) && (p.daemon ==> os.daemonOk)
  }

  /** The setgroups call _prefs_setgroups makes, if it gets that far. */
  function SetGroupsCall(db: IdentityDb, user: string, os: Outcomes): seq<Effect>
  {
    match SupplementaryList(db.groupEnumeration, user, os.reallocFailsAt)
    case None => []
    case Some(gids) => [SetGroups(gids, os.setgroupsOk)]
  }

  /** The identity changes a run that reaches line 131 makes, in order. */
  function IdentityChanges(p: DaemonizePrefs, db: IdentityDb, os: Outcomes): seq<Effect>
    requires IdentityResolves(p, db)
  {
    (if p.username.Some? || p.groupname.Some?
     then [SetGid(TargetGid(p, db), os.setgidOk), SetEGid(TargetGid(p, db), os.setegidOk)]
     else [])
    + (if p.username.Some?
       then SetGroupsCall(db, p.username.value, os)
            + [SetUid(TargetUid(p, db), os.setuidOk), SetEUid(TargetUid(p, db), os.seteuidOk)]
       else [])
  }

  /** getpid() at line 159: the detached process's pid when daemon(0, 0) ran. */
  function RunningPid(p: DaemonizePrefs, os: Outcomes): nat
  {
    if p.daemon then os.pidAfterDaemon else os.pidBefore
  }

  function PidLine(pid: nat): string
  {
    Decimal(pid) + "\n"
  }

  predicate IsIdentityChange(e: Effect)
  {
    e.SetGid? || e.SetEGid? || e.SetGroups? || e.SetUid? || e.SetEUid?
  }

  predicate IsPidFileOp(e: Effect)
  {
    e.OpenPidFile? || e.WritePid? || e.ClosePidFile?
  }

  /** The step of _daemonize_prefs each effect belongs to, in source order. */
  function Phase(e: Effect): nat
  {
    match e
    case AllocHome(_, _) => 0
    case OpenPidFile(_, _) => 1
    case SetGid(_, _) => 2
    case SetEGid(_, _) => 3
    case SetGroups(_, _) => 4
    case SetUid(_, _) => 5
    case SetEUid(_, _) => 6
    case Daemon(_) => 7
    case WritePid(_) => 8
    case ClosePidFile(_) => 9
    case FreeHome => 10
    case _ => 11
  }

  /** Phases strictly increase along the trace: each step happens at most
      once, and never before an earlier step. */
  predicate Ordered(t: seq<Effect>)
  {
    forall i, j :: 0 <= i < j < |t| ==> Phase(t[i]) < Phase(t[j])
  }

  predicate OrderedBelow(t: seq<Effect>, k: nat)
  {
    Ordered(t) && forall i :: 0 <= i < |t| ==> Phase(t[i]) < k
  }

  /** All phases of t lie in [lo, hi). */
  predicate PhasesWithin(t: seq<Effect>, lo: nat, hi: nat)
  {
    forall i :: 0 <= i < |t| ==> lo <= Phase(t[i]) < hi
  }

  lemma OrderedConcat(a: seq<Effect>, b: seq<Effect>, k: nat, hi: nat)
    requires k <= hi && OrderedBelow(a, k) && Ordered(b) && PhasesWithin(b, k, hi)
    ensures OrderedBelow(a + b, hi)
  {
  }

  /** The identity changes are quiet (no resource), ordered, and belong to phases 2-6. */
  lemma IdentityChangesShape(p: DaemonizePrefs, db: IdentityDb, os: Outcomes)
    requires IdentityResolves(p, db)
    ensures Ordered(IdentityChanges(p, db, os)) && PhasesWithin(IdentityChanges(p, db, os), 2, 7)
    ensures forall i :: 0 <= i < |IdentityChanges(p, db, os)| ==>
      var e := IdentityChanges(p, db, os)[i]; Acquires(e).None? && Releases(e).None? && IsIdentityChange(e)
  {
    IdentityChangesOrdered(p, db, os);
    var t := IdentityChanges(p, db, os);
    IdentityChangesKinds(p, db, os);
    forall i | 0 <= i < |t| ensures Acquires(t[i]).None? && Releases(t[i]).None? && IsIdentityChange(t[i]) {
      assert t[i] in t;
    }
  }

  lemma IdentityChangesKinds(p: DaemonizePrefs, db: IdentityDb, os: Outcomes)
    requires IdentityResolves(p, db)
    ensures forall e <- IdentityChanges(p, db, os) :: IsIdentityChange(e)
  {
  }

  lemma IdentityChangesOrdered(p: DaemonizePrefs, db: IdentityDb, os: Outcomes)
    requires IdentityResolves(p, db)
    ensures Ordered(IdentityChanges(p, db, os)) && PhasesWithin(IdentityChanges(p, db, os), 2, 7)
  {
    var g :=
      if p.username.Some? || p.groupname.Some?
      then [SetGid(TargetGid(p, db), os.setgidOk), SetEGid(TargetGid(p, db), os.setegidOk)]
      else [];
    var u :=
      if p.username.Some?
      then SetGroupsCall(db, p.username.value, os)
           + [SetUid(TargetUid(p, db), os.setuidOk), SetEUid(TargetUid(p, db), os.seteuidOk)]
      else [];
    assert IdentityChanges(p, db, os) == g + u;
    if p.username.Some? || p.groupname.Some? {
      PairOrdered(SetGid(TargetGid(p, db), os.setgidOk), SetEGid(TargetGid(p, db), os.setegidOk), 2, 4);
    }
    if p.username.Some? {
      var sg := SetGroupsCall(db, p.username.value, os);
      var ids := [SetUid(TargetUid(p, db), os.setuidOk), SetEUid(TargetUid(p, db), os.seteuidOk)];
      SetGroupsCallShape(db, p.username.value, os);
      PairOrdered(ids[0], ids[1], 5, 7);
      OrderedJoin(sg, ids, 4, 5, 7);
    }
    OrderedJoin(g, u, 2, 4, 7);
  }

  lemma SetGroupsCallShape(db: IdentityDb, user: string, os: Outcomes)
    ensures Ordered(SetGroupsCall(db, user, os)) && PhasesWithin(SetGroupsCall(db, user, os), 4, 5)
  {
  }

  lemma PairOrdered(a: Effect, b: Effect, lo: nat, hi: nat)
    requires lo <= Phase(a) < Phase(b) < hi
    ensures Ordered([a, b]) && PhasesWithin([a, b], lo, hi)
  {
  }

  /** Two ordered traces whose phases lie in consecutive ranges make an ordered trace. */
  lemma OrderedJoin(a: seq<Effect>, b: seq<Effect>, lo: nat, mid: nat, hi: nat)
    requires lo <= mid <= hi
    requires Ordered(a) && PhasesWithin(a, lo, mid) && Ordered(b) && PhasesWithin(b, mid, hi)
    ensures Ordered(a + b) && PhasesWithin(a + b, lo, hi)
  {
  }

  lemma OrderedSnoc(t: seq<Effect>, e: Effect, k: nat)
    requires OrderedBelow(t, k) && k <= Phase(e)
    ensures OrderedBelow(t + [e], Phase(e) + 1)
  {
  }

  // ---------------------------------------------------------------------
  // The stages of _daemonize_prefs.
  // ---------------------------------------------------------------------

  /** The local variables pw, gr, uid and gid after lines 99-114; uid and
      gid are None while unassigned. */
  datatype Resolution = Resolution(pw: Option<Passwd>, gr: Option<Group>, uid: Option<Uid>, gid: Option<Gid>)

  /** What the run holds between stages: the live HOME string env[0]
      points to, whether fp is open, and the effects so far. */
  datatype Stage = Stage(home: Option<string>, pidFileOpen: bool, trace: seq<Effect>)

  /** A stage either lets the run go on or ends it with status 2. */
  datatype Step = Continue(stage: Stage) | Abort(trace: seq<Effect>)

  function Holding(s: Stage, r: Resource): nat
  {
    match r
    case HomeString => if s.home.Some? then 1 else 0
    case PidFile => if s.pidFileOpen then 1 else 0
    case _ => 0
  }

  /** The trace has released every resource it acquired except the ones
      the stage still holds. */
  predicate Accounted(s: Stage)
  {
    forall r :: Acquired(s.trace, r) == Released(s.trace, r) + Holding(s, r)
  }

  /** Lines 99-114. A lookup that finds nothing ends the run; the user's
      primary group must exist unless a group name is given. */
  function Resolve(p: DaemonizePrefs, db: IdentityDb): (r: Option<Resolution>)
    ensures r.Some? <==> IdentityResolves(p, db)
    ensures r.Some? ==> r.value.pw == (if p.username.Some? then GetPwNam(db, p.username.value) else None)
    ensures r.Some? ==> (r.value.uid.Some? <==> p.username.Some?)
    ensures r.Some? && p.username.Some? ==> r.value.uid == Some(TargetUid(p, db))
    ensures r.Some? ==> (r.value.gr.Some? <==> p.username.Some? || p.groupname.Some?)
    ensures r.Some? && r.value.gr.Some? ==> r.value.gid == Some(TargetGid(p, db))
  {
    var pw := if p.username.Some? then GetPwNam(db, p.username.value) else None;
    if p.username.Some? && pw.None? then None
    else
      var uid := if pw.Some? then Some(pw.value.uid) else None;
      var gid := if pw.Some? then Some(pw.value.gid) else None;
      if p.groupname.Some? then
        match GetGrNam(db, p.groupname.value)
        case None => None
        case Some(gr) => Some(Resolution(pw, Some(gr), uid, Some(gr.gid)))
      else if pw.Some? then
        match GetGrGid(db, gid.value)
        case None => None
        case Some(gr) => Some(Resolution(pw, Some(gr), uid, gid))
      else Some(Resolution(pw, None, uid, gid))
  }

  /** Line 116: the target user's entry, else getpwuid(getuid()). */
  function ActingPasswd(id: Resolution, db: IdentityDb, os: Outcomes): Option<Passwd>
  {
    if id.pw.Some? then id.pw else GetPwUid(db, os.realUid)
  }

  /** Lines 118-124: allocate and fill "HOME=dir" when the entry has a home. */
  function PrepareHome(pw: Passwd, os: Outcomes): (r: Option<Stage>)
    ensures r.None? <==> NeedsHome(pw) && !os.homeMallocOk
    ensures r.Some? ==> r.value.home == (if NeedsHome(pw) then Some(HomePrefix + pw.dir.value) else None)
    ensures r.Some? ==> !r.value.pidFileOpen && Accounted(r.value) && OrderedBelow(r.value.trace, 1)
  {
    if !NeedsHome(pw) then Some(Stage(None, false, []))
    else if !os.homeMallocOk then None
    else
      var b := FormatHome(pw.dir.value);
      Some(Stage(Some(b.text), false, [AllocHome(b.size, b.text)]))
  }

  /** Appending one effect keeps the account when the holdings change by
      what the effect acquires and releases, and keeps the phase order when
      the effect comes at or after phase k. */
  lemma AppendEffect(s: Stage, e: Effect, s': Stage, k: nat)
    requires Accounted(s) && OrderedBelow(s.trace, k) && k <= Phase(e)
    requires s'.trace == s.trace + [e]
    requires forall r :: Holding(s', r) + (if Releases(e) == Some(r) then 1 else 0)
                      == Holding(s, r) + (if Acquires(e) == Some(r) then 1 else 0)
    ensures Accounted(s') && OrderedBelow(s'.trace, Phase(e) + 1)
  {
    forall r
      ensures Acquired(s'.trace, r) == Released(s'.trace, r) + Holding(s', r)
    {
      CountsAppend(s.trace, [e], r);
      CountsOne(e, r);
    }
    OrderedSnoc(s.trace, e, k);
  }

  /** Lines 128 and 150-152: closing an open PID file and freeing a set
      HOME string leave nothing held, in phase order. */
  lemma CleanupReleases(s: Stage, closing: seq<Effect>, freeing: seq<Effect>, fcloseOk: bool)
    requires Accounted(s) && OrderedBelow(s.trace, 9)
    requires closing == (if s.pidFileOpen then [ClosePidFile(fcloseOk)] else [])
    requires freeing == (if s.home.Some? then [FreeHome] else [])
    ensures AllReleased(s.trace + closing + freeing) && OrderedBelow(s.trace + closing + freeing, 11)
  {
    var c := Stage(s.home, false, s.trace + closing);
    if s.pidFileOpen {
      AppendEffect(s, ClosePidFile(fcloseOk), c, 9);
    } else {
      assert s.trace + closing == s.trace;
    }
    var f := Stage(None, false, c.trace + freeing);
    if s.home.Some? {
      AppendEffect(c, FreeHome, f, 10);
    } else {
      assert c.trace + freeing == c.trace;
    }
    assert forall r :: Holding(f, r) == 0;
  }

  /** The cleanup only appends, one release per held resource. */
  lemma CleanupAppendsReleases(s: Stage, closing: seq<Effect>, freeing: seq<Effect>, fcloseOk: bool)
    requires closing == (if s.pidFileOpen then [ClosePidFile(fcloseOk)] else [])
    requires freeing == (if s.home.Some? then [FreeHome] else [])
    ensures s.trace <= s.trace + closing + freeing
    ensures |s.trace + closing + freeing| == |s.trace| + Holding(s, PidFile) + Holding(s, HomeString)
    ensures forall e <- (s.trace + closing + freeing)[|s.trace|..] :: Acquires(e).None? && Releases(e).Some?
  {
    var tail := closing + freeing;
    assert s.trace + closing + freeing == s.trace + tail;
    AppendedTail(s.trace, tail);
    if s.pidFileOpen && s.home.Some? {
      assert tail == [ClosePidFile(fcloseOk), FreeHome];
    } else if s.pidFileOpen {
      assert tail == [ClosePidFile(fcloseOk)];
    } else if s.home.Some? {
      assert tail == [FreeHome];
    } else {
      assert tail == [];
    }
  }

  lemma AppendedTail(a: seq<Effect>, b: seq<Effect>)
    ensures a <= a + b && (a + b)[|a|..] == b
  {
  }

  /** The release of lines 128 and 150-152 before returning 2: close the
      PID file if it is open, free env[0] if it is set. */
  function Cleanup(s: Stage, os: Outcomes): (t: seq<Effect>)
    requires Accounted(s) && OrderedBelow(s.trace, 9)
    ensures s.trace <= t
    ensures |t| == |s.trace| + Holding(s, PidFile) + Holding(s, HomeString)
    ensures forall e <- t[|s.trace|..] :: Acquires(e).None? && Releases(e).Some?
    ensures AllReleased(t) && OrderedBelow(t, 11)
  {
    var closing := if s.pidFileOpen then [ClosePidFile(os.fcloseOk)] else [];
    var freeing := if s.home.Some? then [FreeHome] else [];
    CleanupReleases(s, closing, freeing, os.fcloseOk);
    CleanupAppendsReleases(s, closing, freeing, os.fcloseOk);
    s.trace + closing + freeing
  }

  /** Lines 125-130: open the PID file while still privileged; on failure
      free the HOME string and end the run. */
  function OpenPidFileStep(p: DaemonizePrefs, os: Outcomes, s: Stage): (r: Step)
    requires !s.pidFileOpen && Accounted(s) && OrderedBelow(s.trace, 1)
    ensures r.Abort? <==> p.pidfile.Some? && !os.fopenOk
    ensures r.Abort? ==> s.trace + [OpenPidFile(p.pidfile.value, false)] <= r.trace
    ensures r.Abort? ==> AllReleased(r.trace) && OrderedBelow(r.trace, 11)
    ensures r.Continue? ==> r.stage.trace == s.trace + PidFileOpening(p, os)
    ensures r.Continue? ==> r.stage.home == s.home && (r.stage.pidFileOpen <==> p.pidfile.Some?)
    ensures r.Continue? ==> Accounted(r.stage) && OrderedBelow(r.stage.trace, 2)
  {
    if p.pidfile.None? then
      assert s.trace + [] == s.trace;
      Continue(s)
    else
      var e := OpenPidFile(p.pidfile.value, os.fopenOk);
      var s' := s.(pidFileOpen := os.fopenOk, trace := s.trace + [e]);
      AppendEffect(s, e, s', 1);
      if !os.fopenOk then Abort(Cleanup(s', os)) else Continue(s')
  }

  /** Lines 131-146: setgid/setegid when a group record was obtained, then
      for a named user the supplementary groups, setuid and seteuid. Each
      failure is only reported. */
  function DropPrivileges(p: DaemonizePrefs, id: Resolution, db: IdentityDb, os: Outcomes, s: Stage): (r: Stage)
    requires Resolve(p, db) == Some(id)
    requires Accounted(s) && OrderedBelow(s.trace, 2)
    ensures r.home == s.home && r.pidFileOpen == s.pidFileOpen
    ensures r.trace == s.trace + IdentityChanges(p, db, os)
    ensures Accounted(r) && OrderedBelow(r.trace, 7)
  {
    var groupCalls :=
      if id.gr.Some? then [SetGid(id.gid.value, os.setgidOk), SetEGid(id.gid.value, os.setegidOk)] else [];
    var userCalls :=
      if p.username.Some?
      then SetGroupsCall(db, p.username.value, os) + [SetUid(id.uid.value, os.setuidOk), SetEUid(id.uid.value, os.seteuidOk)]
      else [];
    var changes := groupCalls + userCalls;
    assert changes == IdentityChanges(p, db, os);
    IdentityChangesShape(p, db, os);
    OrderedConcat(s.trace, changes, 2, 7);
    CountsQuiet(s.trace, changes);
    s.(trace := s.trace + changes)
  }

  /** Lines 147-154: detach; on failure close the unwritten PID file, free
      the HOME string and end the run. */
  function Detach(p: DaemonizePrefs, os: Outcomes, s: Stage): (r: Step)
    requires Accounted(s) && OrderedBelow(s.trace, 7)
    ensures r.Abort? <==> p.daemon && !os.daemonOk
    ensures r.Abort? ==> s.trace + [Daemon(false)] <= r.trace
    ensures r.Abort? ==> AllReleased(r.trace) && OrderedBelow(r.trace, 11)
    ensures r.Continue? ==> r.stage.trace == s.trace + DetachCall(p, os)
    ensures r.Continue? ==> r.stage.home == s.home && r.stage.pidFileOpen == s.pidFileOpen
    ensures r.Continue? ==> Accounted(r.stage) && OrderedBelow(r.stage.trace, 8)
  {
    if !p.daemon then
      assert s.trace + [] == s.trace;
      Continue(s)
    else
      var e := Daemon(os.daemonOk);
      var s' := s.(trace := s.trace + [e]);
      AppendEffect(s, e, s', 7);
      if !os.daemonOk then Abort(Cleanup(s', os)) else Continue(s')
  }

  /** Lines 155-163: write the current pid and close the file; a failing
      fclose is only reported. */
  function WritePidFile(p: DaemonizePrefs, os: Outcomes, s: Stage): (r: Stage)
    requires Accounted(s) && OrderedBelow(s.trace, 8)
    ensures r.home == s.home && !r.pidFileOpen
    ensures !s.pidFileOpen ==> r.trace == s.trace
    ensures s.pidFileOpen ==> r.trace == s.trace + [WritePid(PidLine(RunningPid(p, os))), ClosePidFile(os.fcloseOk)]
    ensures Accounted(r) && OrderedBelow(r.trace, 10)
  {
    if !s.pidFileOpen then s
    else
      var write := WritePid(PidLine(RunningPid(p, os)));
      WriteThenClose(s, write, os.fcloseOk);
      Stage(s.home, false, s.trace + [write, ClosePidFile(os.fcloseOk)])
  }

  /** Writing to the open PID file and closing it leaves it released. */
  lemma WriteThenClose(s: Stage, write: Effect, fcloseOk: bool)
    requires s.pidFileOpen && Accounted(s) && OrderedBelow(s.trace, 8)
    requires write.WritePid?
    ensures var c := Stage(s.home, false, s.trace + [write, ClosePidFile(fcloseOk)]);
      Accounted(c) && OrderedBelow(c.trace, 10)
  {
    var w := s.(trace := s.trace + [write]);
    AppendEffect(s, write, w, 8);
    var c := Stage(s.home, false, w.trace + [ClosePidFile(fcloseOk)]);
    AppendEffect(w, ClosePidFile(fcloseOk), c, 9);
    assert w.trace + [ClosePidFile(fcloseOk)] == s.trace + [write, ClosePidFile(fcloseOk)];
  }

  /** The value returned by _daemonize_prefs, the live HOME string env[0]
      points to, and its effects. On status 2 env[0] may still point to the
      freed string (lines 128 and 152 do not reset it); home is then None,
      for no live string is held, and daemonize never reads env[0] again. */
  datatype PrefsOutcome = PrefsOutcome(status: int, home: Option<string>, trace: seq<Effect>)

  function Fatal(t: seq<Effect>): PrefsOutcome
  {
    PrefsOutcome(2, None, t)
  }

  /** _daemonize_prefs. */
  function ApplyPrefs(p: DaemonizePrefs, db: IdentityDb, os: Outcomes): (r: PrefsOutcome)
    ensures r.status == 0 || r.status == 2
    ensures r.status == 0 <==> Succeeds(p, db, os)
    ensures !ReachesOpen(p, db, os) ==> r.trace == []
    ensures OrderedBelow(r.trace, 11)
    ensures r.status == 2 ==> r.home.None? && AllReleased(r.trace)
    ensures r.status == 0 ==> r.home == ExpectedHome(p, db, os)
    ensures r.status == 0 ==> Accounted(Stage(r.home, false, r.trace))
  {
    match Resolve(p, db)
    case None => Fatal([])
    case Some(id) =>
      match ActingPasswd(id, db, os)
      case None => Fatal([])
      case Some(pw) =>
        match PrepareHome(pw, os)
        case None => Fatal([])
        case Some(s0) =>
          match OpenPidFileStep(p, os, s0)
          case Abort(t) => Fatal(t)
          case Continue(s1) =>
            var s2 := DropPrivileges(p, id, db, os, s1);
            match Detach(p, os, s2)
            case Abort(t) => Fatal(t)
            case Continue(s3) =>
              var s4 := WritePidFile(p, os, s3);
              PrefsOutcome(0, s4.home, s4.trace)
  }

  // ---------------------------------------------------------------------
  // The effects of a whole run, as one flat sequence.
  // ---------------------------------------------------------------------

  /** Lines 121-123: the HOME allocation, when the acting entry has a home. */
  function HomeAllocation(p: DaemonizePrefs, db: IdentityDb, os: Outcomes): seq<Effect>
  {
    match Acting(p, db, os)
    case Some(pw) =>
      if NeedsHome(pw) then [AllocHome(FormatHome(pw.dir.value).size, FormatHome(pw.dir.value).text)] else []
    case None => []
  }

  function HomeRelease(p: DaemonizePrefs, db: IdentityDb, os: Outcomes): seq<Effect>
  {
    if ExpectedHome(p, db, os).Some? then [FreeHome] else []
  }

  function PidFileOpening(p: DaemonizePrefs, os: Outcomes): seq<Effect>
  {
    if p.pidfile.Some? then [OpenPidFile(p.pidfile.value, os.fopenOk)] else []
  }

  function DetachCall(p: DaemonizePrefs, os: Outcomes): seq<Effect>
  {
    if p.daemon then [Daemon(os.daemonOk)] else []
  }

  /** What happens to an opened PID file after the detach: closed unwritten
      when the detach failed, else written with the running pid and closed. */
  function PidFileClosing(p: DaemonizePrefs, os: Outcomes): seq<Effect>
  {
    if p.pidfile.None? then []
    else if p.daemon && !os.daemonOk then [ClosePidFile(os.fcloseOk)]
    else [WritePid(PidLine(RunningPid(p, os))), ClosePidFile(os.fcloseOk)]
  }

  /** Every effect of _daemonize_prefs, by how far the run gets. */
  function ExpectedTrace(p: DaemonizePrefs, db: IdentityDb, os: Outcomes): seq<Effect>
  {
    if !ReachesOpen(p, db, os) then []
    else if !ReachesPrivilegeDrop(p, db, os) then
      HomeAllocation(p, db, os) + PidFileOpening(p, os) + HomeRelease(p, db, os)
    else
      HomeAllocation(p, db, os) + PidFileOpening(p, os) + IdentityChanges(p, db, os)
      + DetachCall(p, os) + PidFileClosing(p, os)
      + (if Succeeds(p, db, os) then [] else HomeRelease(p, db, os))
  }

  /** The stage machine makes exactly the effects of ExpectedTrace. */
  lemma ApplyPrefsEffects(p: DaemonizePrefs, db: IdentityDb, os: Outcomes)
    ensures ApplyPrefs(p, db, os).trace == ExpectedTrace(p, db, os)
  {
    if ReachesPrivilegeDrop(p, db, os) {
      if Succeeds(p, db, os) {
        SucceedingRunEffects(p, db, os);
      } else {
        DetachFailureEffects(p, db, os);
      }
    } else if ReachesOpen(p, db, os) {
      OpenFailureEffects(p, db, os);
    }
  }

  /** The stages before the PID file, as the run reaches them. */
  lemma HomeStage(p: DaemonizePrefs, db: IdentityDb, os: Outcomes)
    requires ReachesOpen(p, db, os)
    ensures Resolve(p, db).Some? && ActingPasswd(Resolve(p, db).value, db, os) == Acting(p, db, os)
    ensures PrepareHome(Acting(p, db, os).value, os).Some?
    ensures PrepareHome(Acting(p, db, os).value, os).value.trace == HomeAllocation(p, db, os)
    ensures PrepareHome(Acting(p, db, os).value, os).value.home.Some? <==> HomeRelease(p, db, os) == [FreeHome]
  {
  }

  lemma OpenFailureEffects(p: DaemonizePrefs, db: IdentityDb, os: Outcomes)
    requires ReachesOpen(p, db, os) && !ReachesPrivilegeDrop(p, db, os)
    ensures ApplyPrefs(p, db, os).trace == ExpectedTrace(p, db, os)
  {
    HomeStage(p, db, os);
    var s0 := PrepareHome(Acting(p, db, os).value, os).value;
    var open := OpenPidFileStep(p, os, s0);
    assert open.trace == s0.trace + PidFileOpening(p, os) + HomeRelease(p, db, os);
  }

  lemma DetachFailureEffects(p: DaemonizePrefs, db: IdentityDb, os: Outcomes)
    requires ReachesPrivilegeDrop(p, db, os) && !Succeeds(p, db, os)
    ensures ApplyPrefs(p, db, os).trace == ExpectedTrace(p, db, os)
  {
    HomeStage(p, db, os);
    var id := Resolve(p, db).value;
    var s0 := PrepareHome(Acting(p, db, os).value, os).value;
    var s1 := OpenPidFileStep(p, os, s0).stage;
    assert s1.trace == s0.trace + PidFileOpening(p, os);
    var s2 := DropPrivileges(p, id, db, os, s1);
    var detach := Detach(p, os, s2);
    assert detach.trace == s2.trace + DetachCall(p, os) + PidFileClosing(p, os) + HomeRelease(p, db, os);
  }

  lemma SucceedingRunEffects(p: DaemonizePrefs, db: IdentityDb, os: Outcomes)
    requires Succeeds(p, db, os)
    ensures ApplyPrefs(p, db, os).trace == ExpectedTrace(p, db, os)
  {
    HomeStage(p, db, os);
    var id := Resolve(p, db).value;
    var s0 := PrepareHome(Acting(p, db, os).value, os).value;
    var s1 := OpenPidFileStep(p, os, s0).stage;
    assert s1.trace == s0.trace + PidFileOpening(p, os);
    var s2 := DropPrivileges(p, id, db, os, s1);
    var s3 := Detach(p, os, s2).stage;
    assert s3.trace == s2.trace + DetachCall(p, os);
    var s4 := WritePidFile(p, os, s3);
    assert s4.trace == s3.trace + PidFileClosing(p, os);
    assert ApplyPrefs(p, db, os).trace == s4.trace;
    assert ExpectedTrace(p, db, os)
        == HomeAllocation(p, db, os) + PidFileOpening(p, os) + IdentityChanges(p, db, os)
           + DetachCall(p, os) + PidFileClosing(p, os) + [];
  }

  /** The identity changes of a run: none unless it gets past the PID file;
      then setgid/setegid to the target gid whenever a user or a group is
      named, and for a named user the supplementary groups, setuid and
      seteuid to the user's uid, in that order. */
  lemma IdentityChangesOfRun(p: DaemonizePrefs, db: IdentityDb, os: Outcomes)
    ensures Select(ApplyPrefs(p, db, os).trace, IsIdentityChange)
         == (if ReachesPrivilegeDrop(p, db, os) then IdentityChanges(p, db, os) else [])
  {
    ApplyPrefsEffects(p, db, os);
    ExpectedIdentityChanges(p, db, os);
  }

  lemma ExpectedIdentityChanges(p: DaemonizePrefs, db: IdentityDb, os: Outcomes)
    ensures Select(ExpectedTrace(p, db, os), IsIdentityChange)
         == (if ReachesPrivilegeDrop(p, db, os) then IdentityChanges(p, db, os) else [])
  {
    if ReachesPrivilegeDrop(p, db, os) {
      ExpectedIdentityChangesAfterOpen(p, db, os);
    } else {
      var t := ExpectedTrace(p, db, os);
      assert forall i :: 0 <= i < |t| ==> !IsIdentityChange(t[i]);
      SelectNone(t, IsIdentityChange);
    }
  }

  lemma ExpectedIdentityChangesAfterOpen(p: DaemonizePrefs, db: IdentityDb, os: Outcomes)
    requires ReachesPrivilegeDrop(p, db, os)
    ensures Select(ExpectedTrace(p, db, os), IsIdentityChange) == IdentityChanges(p, db, os)
  {
    var x := HomeAllocation(p, db, os) + PidFileOpening(p, os);
    var y := DetachCall(p, os) + PidFileClosing(p, os)
             + (if Succeeds(p, db, os) then [] else HomeRelease(p, db, os));
    ExpectedTraceAroundIdentity(p, db, os);
    IdentityChangesShape(p, db, os);
    NoIdentityChangeOutside(p, db, os);
    SelectMiddle(x, IdentityChanges(p, db, os), y, IsIdentityChange);
  }

  /** Every effect before and after the identity changes is of another kind. */
  lemma NoIdentityChangeOutside(p: DaemonizePrefs, db: IdentityDb, os: Outcomes)
    ensures forall e <- HomeAllocation(p, db, os) + PidFileOpening(p, os) :: !IsIdentityChange(e)
    ensures forall e <- DetachCall(p, os) + PidFileClosing(p, os)
                        + (if Succeeds(p, db, os) then [] else HomeRelease(p, db, os)) :: !IsIdentityChange(e)
  {
  }

  lemma ExpectedTraceAroundIdentity(p: DaemonizePrefs, db: IdentityDb, os: Outcomes)
    requires ReachesPrivilegeDrop(p, db, os)
    ensures ExpectedTrace(p, db, os)
         == (HomeAllocation(p, db, os) + PidFileOpening(p, os))
            + IdentityChanges(p, db, os)
            + (DetachCall(p, os) + PidFileClosing(p, os)
               + (if Succeeds(p, db, os) then [] else HomeRelease(p, db, os)))
  {
    var front := HomeAllocation(p, db, os) + PidFileOpening(p, os);
    var back := DetachCall(p, os) + PidFileClosing(p, os);
    var last := if Succeeds(p, db, os) then [] else HomeRelease(p, db, os);
    assert ExpectedTrace(p, db, os) == front + IdentityChanges(p, db, os) + DetachCall(p, os) + PidFileClosing(p, os) + last;
    AppendFiveParts(front, IdentityChanges(p, db, os), DetachCall(p, os), PidFileClosing(p, os), last);
  }

  /** The run detaches, daemon(0, 0) succeeding at line 148, exactly when
      it gets past the PID file with detaching asked and daemon succeeds. */
  lemma DetachOfRun(p: DaemonizePrefs, db: IdentityDb, os: Outcomes)
    ensures Daemon(true) in ApplyPrefs(p, db, os).trace
        <==> ReachesPrivilegeDrop(p, db, os) && p.daemon && os.daemonOk
  {
    ApplyPrefsEffects(p, db, os);
    ExpectedDetach(p, db, os);
  }

  lemma ExpectedDetach(p: DaemonizePrefs, db: IdentityDb, os: Outcomes)
    ensures Daemon(true) in ExpectedTrace(p, db, os)
        <==> ReachesPrivilegeDrop(p, db, os) && p.daemon && os.daemonOk
  {
    var front := HomeAllocation(p, db, os) + PidFileOpening(p, os);
    assert Daemon(true) !in front;
    if ReachesPrivilegeDrop(p, db, os) {
      var back := DetachCall(p, os) + PidFileClosing(p, os)
        + (if Succeeds(p, db, os) then [] else HomeRelease(p, db, os));
      ExpectedTraceAroundIdentity(p, db, os);
      IdentityChangesKinds(p, db, os);
      assert Daemon(true) !in IdentityChanges(p, db, os);
      assert Daemon(true) in back <==> Daemon(true) in DetachCall(p, os);
    } else if ReachesOpen(p, db, os) {
      assert ExpectedTrace(p, db, os) == front + HomeRelease(p, db, os);
    }
  }

  /** The PID file operations of a run: opened (before any identity
      change) once the identity and HOME are settled; once opened, closed
      unwritten if the detach fails, else written with the decimal pid of
      the process left running, a newline, and closed. */
  lemma PidFileOfRun(p: DaemonizePrefs, db: IdentityDb, os: Outcomes)
    ensures Select(ApplyPrefs(p, db, os).trace, IsPidFileOp) == PidFileHistory(p, db, os)
  {
    ApplyPrefsEffects(p, db, os);
    ExpectedPidFileOps(p, db, os);
  }

  function PidFileHistory(p: DaemonizePrefs, db: IdentityDb, os: Outcomes): seq<Effect>
  {
    if !ReachesOpen(p, db, os) || p.pidfile.None? then []
    else if !os.fopenOk then [OpenPidFile(p.pidfile.value, false)]
    else if p.daemon && !os.daemonOk then [OpenPidFile(p.pidfile.value, true), ClosePidFile(os.fcloseOk)]
    else [OpenPidFile(p.pidfile.value, true), WritePid(Decimal(RunningPid(p, os)) + "\n"), ClosePidFile(os.fcloseOk)]
  }

  lemma ExpectedPidFileOps(p: DaemonizePrefs, db: IdentityDb, os: Outcomes)
    ensures Select(ExpectedTrace(p, db, os), IsPidFileOp) == PidFileHistory(p, db, os)
  {
    if ReachesPrivilegeDrop(p, db, os) {
      ExpectedPidFileOpsAfterOpen(p, db, os);
    } else if ReachesOpen(p, db, os) {
      SelectMiddle(HomeAllocation(p, db, os), PidFileOpening(p, os), HomeRelease(p, db, os), IsPidFileOp);
    }
  }

  lemma ExpectedPidFileOpsAfterOpen(p: DaemonizePrefs, db: IdentityDb, os: Outcomes)
    requires ReachesPrivilegeDrop(p, db, os)
    ensures Select(ExpectedTrace(p, db, os), IsPidFileOp) == PidFileHistory(p, db, os)
  {
    var a, o := HomeAllocation(p, db, os), PidFileOpening(p, os);
    var m := IdentityChanges(p, db, os) + DetachCall(p, os);
    var w := PidFileClosing(p, os);
    var f := if Succeeds(p, db, os) then [] else HomeRelease(p, db, os);
    ExpectedTraceAfterOpen(p, db, os);
    NoPidFileOpsBetween(p, db, os);
    if p.pidfile.Some? {
      assert PidFileHistory(p, db, os) == o + w;
      SelectTwoParts(a, o, m, w, f, IsPidFileOp);
    } else {
      SelectTwoParts(a, [], m, [], f, IsPidFileOp);
    }
  }

  lemma ExpectedTraceAfterOpen(p: DaemonizePrefs, db: IdentityDb, os: Outcomes)
    requires ReachesPrivilegeDrop(p, db, os)
    ensures ExpectedTrace(p, db, os)
         == HomeAllocation(p, db, os) + PidFileOpening(p, os)
            + (IdentityChanges(p, db, os) + DetachCall(p, os))
            + PidFileClosing(p, os)
            + (if Succeeds(p, db, os) then [] else HomeRelease(p, db, os))
  {
  }

  /** Between opening and closing, the PID file is left alone. */
  lemma NoPidFileOpsBetween(p: DaemonizePrefs, db: IdentityDb, os: Outcomes)
    requires IdentityResolves(p, db)
    ensures forall i :: 0 <= i < |IdentityChanges(p, db, os) + DetachCall(p, os)| ==>
      !IsPidFileOp((IdentityChanges(p, db, os) + DetachCall(p, os))[i])
  {
    IdentityChangesShape(p, db, os);
  }

  /** Each of the four lookups of lines 99-117 that finds nothing ends the
      run with 2 before anything is allocated, opened or changed. */
  lemma LookupFailuresReturnEarly(p: DaemonizePrefs, db: IdentityDb, os: Outcomes)
    requires
      || (p.username.Some? && p.username.value !in db.usersByName)
      || (p.groupname.Some? && p.groupname.value !in db.groupsByName)
      || (p.username.Some? && p.username.value in db.usersByName && p.groupname.None?
          && db.usersByName[p.username.value].gid !in db.groupsByGid)
      || (p.username.None? && os.realUid !in db.usersByUid)
    ensures ApplyPrefs(p, db, os) == PrefsOutcome(2, None, [])
  {
  }

  /** Outcomes that agree on every call whose failure ends the run. */
  predicate SameFatalOutcomes(os: Outcomes, os': Outcomes)
  {
    && os.realUid == os'.realUid
    && os.homeMallocOk == os'.homeMallocOk
    && os.fopenOk == os'.fopenOk
    && os.daemonOk == os'.daemonOk
  }

  /** setgid, setegid, the group scan's realloc, setgroups, setuid, seteuid
      and fclose never decide the status. */
  lemma PrivilegeFailuresNonFatal(p: DaemonizePrefs, db: IdentityDb, os: Outcomes, os': Outcomes)
    requires SameFatalOutcomes(os, os')
    ensures ApplyPrefs(p, db, os).status == ApplyPrefs(p, db, os').status
  {
  }

  /** A run with every preference set and every fatal step succeeding:
      HOME, PID file, group, supplementary groups, user, detach, PID. */
  lemma FullRunOrder(p: DaemonizePrefs, db: IdentityDb, os: Outcomes)
    requires p.daemon && p.username.Some? && p.groupname.Some? && p.pidfile.Some?
    requires Succeeds(p, db, os) && os.reallocFailsAt.None?
    ensures ApplyPrefs(p, db, os).trace
         == HomeAllocation(p, db, os)
            + [ OpenPidFile(p.pidfile.value, true),
                SetGid(db.groupsByName[p.groupname.value].gid, os.setgidOk),
                SetEGid(db.groupsByName[p.groupname.value].gid, os.setegidOk),
                SetGroups(MemberGids(db.groupEnumeration, p.username.value), os.setgroupsOk),
                SetUid(db.usersByName[p.username.value].uid, os.setuidOk),
                SetEUid(db.usersByName[p.username.value].uid, os.seteuidOk),
                Daemon(true),
                WritePid(Decimal(os.pidAfterDaemon) + "\n"),
                ClosePidFile(os.fcloseOk) ]
  {
    ApplyPrefsEffects(p, db, os);
  }
}

=== FILE: supplementary_groups.dfy ===
/** _prefs_setgroups: the scan of the group database that collects the
    supplementary group list of a user (src/daemonize.c:167-197). */
module SupplementaryGroups {
  import opened Wrappers
  import opened Identity

  /** What one group contributes: its gid once for every gr_mem entry equal
      (strcmp) to the user name. */
  function MatchGids(members: seq<string>, gid: Gid, user: string): seq<Gid>
  {
    if members == [] then []
    else MatchGids(members[..|members| - 1], gid, user)
         + (if members[|members| - 1] == user then [gid] else [])
  }

  /** The list the scan builds when every realloc succeeds, in enumeration order. */
  function MemberGids(groups: seq<Group>, user: string): seq<Gid>
  {
    if groups == [] then []
    else
      var last := groups[|groups| - 1];
      MemberGids(groups[..|groups| - 1], user) + MatchGids(last.members, last.gid, user)
  }

  /** How many gr_mem entries of the whole enumeration name the user. */
  function Matches(groups: seq<Group>, user: string): nat
  {
    if groups == [] then 0
    else Matches(groups[..|groups| - 1], user) + multiset(groups[|groups| - 1].members)[user]
  }

  /** Whether group g lists the user among its members. */
  predicate Lists(g: Group, user: string)
  {
    user in g.members
  }

  /** The outcome of the scan: None when a realloc fails (the function then
      returns without calling setgroups), else the list handed to setgroups.
      realloc is called once per matching entry, the k-th call (from 0)
      when k gids have been collected. */
  function SupplementaryList(groups: seq<Group>, user: string, reallocFailsAt: Option<nat>): (r: Option<seq<Gid>>)
    ensures r.None? <==> reallocFailsAt.Some? && reallocFailsAt.value < Matches(groups, user)
    ensures r.Some? ==> |r.value| == Matches(groups, user)
  {
    MemberGidsCount(groups, user);
    var gids := MemberGids(groups, user);
    if reallocFailsAt.Some? && reallocFailsAt.value < |gids| then None else Some(gids)
  }

  lemma {:induction false} MatchGidsAppend(a: seq<string>, b: seq<string>, gid: Gid, user: string)
    ensures MatchGids(a + b, gid, user) == MatchGids(a, gid, user) + MatchGids(b, gid, user)
    decreases |b|
  {
    if b == [] {
      assert a + b == a;
    } else {
      var b' := b[..|b| - 1];
      MatchGidsAppend(a, b', gid, user);
      assert (a + b)[..|a + b| - 1] == a + b';
    }
  }

  lemma {:induction false} MatchGidsCount(members: seq<string>, gid: Gid, user: string)
    ensures |MatchGids(members, gid, user)| == multiset(members)[user]
    decreases |members|
  {
    if members != [] {
      var init := members[..|members| - 1];
      MatchGidsCount(init, gid, user);
      assert members == init + [members[|members| - 1]];
    }
  }

  lemma {:induction false} MatchGidsContents(members: seq<string>, gid: Gid, user: string)
    ensures forall k :: 0 <= k < |MatchGids(members, gid, user)| ==> MatchGids(members, gid, user)[k] == gid
    ensures |MatchGids(members, gid, user)| > 0 <==> user in members
    decreases |members|
  {
    if members != [] {
      var init := members[..|members| - 1];
      MatchGidsContents(init, gid, user);
      assert members == init + [members[|members| - 1]];
    }
  }

  /** The list has one entry per matching gr_mem entry. */
  lemma {:induction false} MemberGidsCount(groups: seq<Group>, user: string)
    ensures |MemberGids(groups, user)| == Matches(groups, user)
    decreases |groups|
  {
    if groups != [] {
      var last := groups[|groups| - 1];
      MemberGidsCount(groups[..|groups| - 1], user);
      MatchGidsCount(last.members, last.gid, user);
    }
  }

  /** The scan keeps the enumeration order: the list of a concatenation is
      the concatenation of the lists. */
  lemma {:induction false} MemberGidsAppend(a: seq<Group>, b: seq<Group>, user: string)
    ensures MemberGids(a + b, user) == MemberGids(a, user) + MemberGids(b, user)
    decreases |b|
  {
    if b == [] {
      assert a + b == a;
    } else {
      var b' := b[..|b| - 1];
      var last := b[|b| - 1];
      MemberGidsAppend(a, b', user);
      assert (a + b)[..|a + b| - 1] == a + b';
      assert (a + b)[|a + b| - 1] == last;
      var m := MatchGids(last.members, last.gid, user);
      calc {
        MemberGids(a + b, user);
        MemberGids(a + b', user) + m;
        (MemberGids(a, user) + MemberGids(b', user)) + m;
        { assert MemberGids(b, user) == MemberGids(b', user) + m; }
        MemberGids(a, user) + MemberGids(b, user);
      }
    }
  }

  /** A gid is in the list exactly when some enumerated group with that gid
      lists the user. */
  lemma {:induction false} MemberGidsMembership(groups: seq<Group>, user: string)
    ensures forall g :: g in MemberGids(groups, user) <==>
      exists i :: 0 <= i < |groups| && groups[i].gid == g && Lists(groups[i], user)
    decreases |groups|
  {
    if groups != [] {
      var init := groups[..|groups| - 1];
      var last := groups[|groups| - 1];
      MemberGidsMembership(init, user);
      MatchGidsContents(last.members, last.gid, user);
      forall g | g in MemberGids(groups, user)
        ensures exists i :: 0 <= i < |groups| && groups[i].gid == g && Lists(groups[i], user)
      {
        if g in MemberGids(init, user) {
          var i :| 0 <= i < |init| && init[i].gid == g && Lists(init[i], user);
          assert groups[i] == init[i];
        } else {
          var m := MatchGids(last.members, last.gid, user);
          assert g in m;
          var k :| 0 <= k < |m| && m[k] == g;
          assert groups[|groups| - 1].gid == g;
        }
      }
      forall g | exists i :: 0 <= i < |groups| && groups[i].gid == g && Lists(groups[i], user)
        ensures g in MemberGids(groups, user)
      {
        var i :| 0 <= i < |groups| && groups[i].gid == g && Lists(groups[i], user);
        if i < |init| {
          assert init[i] == groups[i];
        } else {
          var m := MatchGids(last.members, last.gid, user);
          assert m[0] == g;
        }
      }
    }
  }

  /** The loop of lines 176-191 followed by the setgroups decision: it walks
      the enumeration group by group and member by member, grows the list by
      one gid per matching entry, and gives up on the first failing realloc. */
  method PrefsSetGroups(groups: seq<Group>, user: string, reallocFailsAt: Option<nat>)
    returns (list: Option<seq<Gid>>)
    ensures list == SupplementaryList(groups, user, reallocFailsAt)
  {
    var acc: seq<Gid> := [];
    var g := 0;
    while g < |groups|
      invariant 0 <= g <= |groups|
      invariant acc == MemberGids(groups[..g], user)
      invariant reallocFailsAt.Some? ==> |acc| <= reallocFailsAt.value
    {
      var members := groups[g].members;
      var i := 0;
      while i < |members|
        invariant 0 <= i <= |members|
        invariant acc == MemberGids(groups[..g], user) + MatchGids(members[..i], groups[g].gid, user)
        invariant reallocFailsAt.Some? ==> |acc| <= reallocFailsAt.value
      {
        assert members[..i + 1] == members[..i] + [members[i]];
        if members[i] == user {
          if reallocFailsAt == Some(|acc|) {
            ScanPrefixBound(groups, g, i + 1, user);
            return None;
          }
          acc := acc + [groups[g].gid];
        }
        i := i + 1;
      }
      assert members[..i] == members;
      assert groups[..g + 1][..g] == groups[..g];
      g := g + 1;
    }
    assert groups[..g] == groups;
    return Some(acc);
  }

  /** What the scan has collected by member i of group g is a prefix of the
      final list, so it is no longer than the final list. */
  lemma ScanPrefixBound(groups: seq<Group>, g: nat, i: nat, user: string)
    requires g < |groups| && i <= |groups[g].members|
    ensures |MemberGids(groups[..g], user) + MatchGids(groups[g].members[..i], groups[g].gid, user)|
      <= |MemberGids(groups, user)|
  {
    MatchPrefixBound(groups[g].members, i, groups[g].gid, user);
    MemberGidsStep(groups, g, user);
    MemberPrefixBound(groups, g + 1, user);
  }

  lemma MatchPrefixBound(ms: seq<string>, i: nat, gid: Gid, user: string)
    requires i <= |ms|
    ensures |MatchGids(ms[..i], gid, user)| <= |MatchGids(ms, gid, user)|
  {
    MatchGidsAppend(ms[..i], ms[i..], gid, user);
    assert ms[..i] + ms[i..] == ms;
  }

  lemma MemberGidsStep(groups: seq<Group>, g: nat, user: string)
    requires g < |groups|
    ensures MemberGids(groups[..g + 1], user)
         == MemberGids(groups[..g], user) + MatchGids(groups[g].members, groups[g].gid, user)
  {
    var upto := groups[..g + 1];
    assert upto[..|upto| - 1] == groups[..g];
  }

  lemma MemberPrefixBound(groups: seq<Group>, k: nat, user: string)
    requires k <= |groups|
    ensures |MemberGids(groups[..k], user)| <= |MemberGids(groups, user)|
  {
    MemberGidsAppend(groups[..k], groups[k..], user);
    assert groups[..k] + groups[k..] == groups;
  }
}

=== FILE: system.dfy ===
/** What the operating system answers to the calls of one run. Every call
    below happens at most once per run, so one outcome per call suffices. */
module System {
  import opened Wrappers
  import opened Identity

  datatype Outcomes = Outcomes(
    realUid: Uid,                  // getuid()
    pidBefore: nat,                // getpid() when no detach happens
    pidAfterDaemon: nat,           // getpid() in the process daemon(0, 0) leaves running
    argsMallocOk: bool,            // malloc of the argument vector
    homeMallocOk: bool,            // malloc of the "HOME=..." string
    strdupOk: bool,                // strdup(program)
    fopenOk: bool,                 // fopen(pidfile, "w")
    fcloseOk: bool,                // fclose of the PID file
    setgidOk: bool,
    setegidOk: bool,
    setgroupsOk: bool,
    setuidOk: bool,
    seteuidOk: bool,
    daemonOk: bool,                // daemon(0, 0)
    execveOk: bool,                // true: the process image is replaced and execve never returns
    reallocFailsAt: Option<nat>    // the first realloc call (0-based) of the group scan that fails
  )
}

=== FILE: text.dfy ===
/** The two pieces of text formatting the core performs: the "%u\n" PID
    line written to the PID file, and the snprintf that builds "HOME=dir". */
module Text {

  predicate IsDigit(c: char)
  {
    '0' <= c <= '9'
  }

  predicate AllDigits(s: string)
  {
    forall i :: 0 <= i < |s| ==> IsDigit(s[i])
  }

  function DigitChar(d: nat): (c: char)
    requires d < 10
    ensures IsDigit(c)
  {
    (('0' as int) + d) as char
  }

  function DigitValue(c: char): (d: nat)
    requires IsDigit(c)
    ensures d < 10
  {
    (c as int) - ('0' as int)
  }

  /** printf's "%u": the decimal digits of n, most significant first, without leading zeros. */
  function Decimal(n: nat): (s: string)
    ensures 1 <= |s|
    ensures AllDigits(s)
    ensures s[0] == '0' ==> n == 0 && s == "0"
    decreases n
  {
    if n < 10 then [DigitChar(n)] else Decimal(n / 10) + [DigitChar(n % 10)]
  }

  /** Reads a string of decimal digits back as a number. */
  function ParseDecimal(s: string): nat
    requires AllDigits(s)
  {
    if s == [] then 0 else 10 * ParseDecimal(s[..|s| - 1]) + DigitValue(s[|s| - 1])
  }

  /** The text written for a PID is read back as the same PID. */
  lemma {:induction false} ParseDecimalInvertsDecimal(n: nat)
    ensures ParseDecimal(Decimal(n)) == n
    decreases n
  {
    var s := Decimal(n);
    if n >= 10 {
      ParseDecimalInvertsDecimal(n / 10);
      assert s[..|s| - 1] == Decimal(n / 10);
    }
  }

  /** snprintf(buf, size, "%s", s): at most size - 1 characters, then the terminator. */
  function Snprintf(size: nat, s: string): (r: string)
    ensures r <= s
    ensures size == 0 ==> r == []
    ensures size > 0 ==> |r| == (if |s| < size then |s| else size - 1)
  {
    if size == 0 then []
    else if |s| < size then s
    else s[..size - 1]
  }

  /** The `home` array of _daemonize_prefs; sizeof counts its terminating NUL. */
  const HomePrefix: string := "HOME="
  const HomePrefixSize: nat := |HomePrefix| + 1

  /** The malloc'd HOME buffer: its size and what snprintf leaves in it. */
  datatype HomeBuffer = HomeBuffer(size: nat, text: string)

  /** Lines 118-123: the buffer of sizeof(home) + strlen(dir) bytes holds
      "HOME=" followed by the whole directory and its terminator. */
  function FormatHome(dir: string): (b: HomeBuffer)
    ensures b.text == HomePrefix + dir
    ensures |b.text| + 1 == b.size
  {
    var size := HomePrefixSize + |dir|;
    HomeBuffer(size, Snprintf(size, HomePrefix + dir))
  }
}

=== FILE: transition.dfy ===
/** daemonize (src/daemonize.c:39-70): build the argument vector, apply the
    preferences, then replace the process image with the program. */
module Transition {
  import opened Wrappers
  import opened Identity
  import opened System
  import opened Effects
  import opened Privileges

  /** How a run ends: the process image is replaced by the program (execve
      does not return), or the function returns a status. */
  datatype Ending = Replaced | Exited(status: int)

  datatype Run = Run(ending: Ending, trace: seq<Effect>)

  /** Lines 57-64: args[0] is the copy of program, args[1..argc] the
      operands, and a NULL closes the vector. */
  function ExecArgs(program: string, operands: seq<string>): (args: seq<Option<string>>)
    ensures |args| == |operands| + 2
    ensures args[0] == Some(program) && args[|args| - 1] == None
    ensures forall i :: 0 <= i < |operands| ==> args[i + 1] == Some(operands[i])
  {
    [Some(program)] + SomeEach(operands) + [None]
  }

  /** Line 43: env holds at most the HOME string that _daemonize_prefs set, then NULL. */
  function EnvVector(home: Option<string>): (env: seq<Option<string>>)
    ensures |env| == 2 && env[1] == None
  {
    [home, None]
  }

  /** What _daemonize_prefs returns and leaves in env; a NULL prefs is a success
      that sets nothing. */
  function PrefsStep(prefs: Option<DaemonizePrefs>, db: IdentityDb, os: Outcomes): PrefsOutcome
  {
    if prefs.Some? then ApplyPrefs(prefs.value, db, os) else PrefsOutcome(0, None, [])
  }

  // ---------------------------------------------------------------------
  // Reference definitions.
  // ---------------------------------------------------------------------

  /** The preferences, when given, are applied with success. */
  predicate PrefsSucceed(prefs: Option<DaemonizePrefs>, db: IdentityDb, os: Outcomes)
  {
    prefs.Some? ==> Succeeds(prefs.value, db, os)
  }

  /** The run gets as far as the execve of line 65. */
  predicate ReachesExec(prefs: Option<DaemonizePrefs>, db: IdentityDb, os: Outcomes)
  {
    os.argsMallocOk && PrefsSucceed(prefs, db, os) && os.strdupOk
  }

  /** The HOME string the program is started with. */
  function ExecHome(prefs: Option<DaemonizePrefs>, db: IdentityDb, os: Outcomes): Option<string>
  {
    if prefs.Some? then ExpectedHome(prefs.value, db, os) else None
  }

  /** The strdup of line 57 fails while env[0] holds a HOME string: the
      early return of line 60 does not free it. */
  predicate LeaksHome(prefs: Option<DaemonizePrefs>, db: IdentityDb, os: Outcomes)
  {
    os.argsMallocOk && PrefsSucceed(prefs, db, os) && !os.strdupOk && ExecHome(prefs, db, os).Some?
  }

  /** daemonize(prefs, program, argc, argv): argv must hold argc operands.
      After a successful daemon(0, 0) the Run follows the child; what the
      caller sees is CallerEnding. */
  function Daemonize(prefs: Option<DaemonizePrefs>, program: string, argc: int, argv: seq<string>,
                     db: IdentityDb, os: Outcomes): (r: Run)
    requires 0 <= argc <= |argv|
    ensures r.ending == Replaced || r.ending == Exited(2)
    ensures r.ending == Replaced <==> ReachesExec(prefs, db, os) && os.execveOk
    ensures r.trace == [] <==> !os.argsMallocOk
  {
    if !os.argsMallocOk then Run(Exited(2), [])
    else Launch(PrefsStep(prefs, db, os), program, argc, argv, os)
  }

  /** Lines 52-69, once the argument vector is allocated, given what
      _daemonize_prefs returned, left in env and did. */
  function Launch(pr: PrefsOutcome, program: string, argc: int, argv: seq<string>, os: Outcomes): (r: Run)
    requires 0 <= argc <= |argv|
    ensures r.ending == Replaced || r.ending == Exited(2)
    ensures r.ending == Replaced <==> pr.status == 0 && os.strdupOk && os.execveOk
    ensures |r.trace| > 0 && r.trace[0] == AllocArgs(argc + 2)
  {
    var start := [AllocArgs(argc + 2)];
    if pr.status != 0 then Run(Exited(2), start + pr.trace + [FreeArgs])
    else if !os.strdupOk then Run(Exited(2), start + pr.trace + [FreeArgs])
    else
      var exec := Execve(program, ExecArgs(program, argv[..argc]), EnvVector(pr.home));
      var t := start + pr.trace + [DupProgram(program), exec];
      if os.execveOk then Run(Replaced, t)
      else Run(Exited(2), t + [FreeProgram, FreeArgs] + (if pr.home.Some? then [FreeHome] else []))
  }

  // ---------------------------------------------------------------------
  // Properties of a run.
  // ---------------------------------------------------------------------

  /** The program receives its own name and then exactly the argc operands. */
  lemma {:induction false} ExecArgsStrings(program: string, operands: seq<string>)
    ensures CStrings(ExecArgs(program, operands)) == [program] + operands
  {
    var args := ExecArgs(program, operands);
    assert args[1..] == SomeEach(operands) + [None];
    CStringsOfTerminated(operands);
  }

  /** The environment is HOME=dir alone when the acting entry has a home,
      and empty otherwise. */
  lemma EnvStrings(home: Option<string>)
    ensures CStrings(EnvVector(home)) == (if home.Some? then [home.value] else [])
  {
    if home.Some? {
      assert EnvVector(home)[1..] == [None];
    }
  }

  predicate IsExec(e: Effect)
  {
    e.Execve?
  }

  /** What daemonize relies on from _daemonize_prefs: status 0 or 2, no
      live HOME string on failure (env[0] was freed, and is not read again),
      no execve, and nothing held but the HOME string it returns. */
  predicate PrefsContract(pr: PrefsOutcome)
  {
    && (pr.status == 0 || pr.status == 2)
    && (pr.status != 0 ==> pr.home.None?)
    && Select(pr.trace, IsExec) == []
    && Accounted(Stage(pr.home, false, pr.trace))
  }

  /** _daemonize_prefs, and its absence, keep that contract; on success env
      holds the HOME string of the acting entry. */
  lemma PrefsStepContract(prefs: Option<DaemonizePrefs>, db: IdentityDb, os: Outcomes)
    ensures PrefsContract(PrefsStep(prefs, db, os))
    ensures PrefsStep(prefs, db, os).status == 0 <==> PrefsSucceed(prefs, db, os)
    ensures PrefsStep(prefs, db, os).status == 0 ==> PrefsStep(prefs, db, os).home == ExecHome(prefs, db, os)
  {
    if prefs.Some? {
      PrefsNeverExec(prefs.value, db, os);
      PrefsHolding(prefs.value, db, os);
    }
  }

  /** _daemonize_prefs never executes a program. */
  lemma PrefsNeverExec(p: DaemonizePrefs, db: IdentityDb, os: Outcomes)
    ensures Select(ApplyPrefs(p, db, os).trace, IsExec) == []
  {
    PrefsPhasesNeverExec(ApplyPrefs(p, db, os).trace);
  }

  /** The execve is not one of the phases of _daemonize_prefs. */
  lemma PrefsPhasesNeverExec(t: seq<Effect>)
    requires OrderedBelow(t, 11)
    ensures Select(t, IsExec) == []
  {
    SelectNone(t, IsExec);
  }

  /** The resources _daemonize_prefs leaves held: none on failure, the HOME
      string it returns in env on success. */
  lemma PrefsHolding(p: DaemonizePrefs, db: IdentityDb, os: Outcomes)
    ensures Accounted(Stage(ApplyPrefs(p, db, os).home, false, ApplyPrefs(p, db, os).trace))
  {
    var pr := ApplyPrefs(p, db, os);
    var s := Stage(pr.home, false, pr.trace);
    if pr.status != 0 {
      assert AllReleased(pr.trace);
      forall res ensures Acquired(pr.trace, res) == Released(pr.trace, res) + Holding(s, res) {
        assert Holding(s, res) == 0;
      }
    }
  }

  /** daemon(0, 0) at line 148 forks, and the parent exits with 0 inside
      it: the caller of daemonize sees that 0, while the Run goes on to
      follow the child. */
  predicate Detaches(prefs: Option<DaemonizePrefs>, db: IdentityDb, os: Outcomes)
  {
    os.argsMallocOk && prefs.Some? && prefs.value.daemon && ReachesPrivilegeDrop(prefs.value, db, os) && os.daemonOk
  }

  /** The ending the invoking process observes. */
  function CallerEnding(r: Run): Ending
  {
    if Daemon(true) in r.trace then Exited(0) else r.ending
  }

  /** The caller of daemonize sees 0 once the run has detached; otherwise
      it is the process that is replaced or returns 2. */
  lemma CallerOfDaemonize(prefs: Option<DaemonizePrefs>, program: string, argc: int, argv: seq<string>,
                          db: IdentityDb, os: Outcomes)
    requires 0 <= argc <= |argv|
    ensures CallerEnding(Daemonize(prefs, program, argc, argv, db, os))
         == if Detaches(prefs, db, os) then Exited(0)
            else if ReachesExec(prefs, db, os) && os.execveOk then Replaced
            else Exited(2)
  {
    if os.argsMallocOk {
      var pr := PrefsStep(prefs, db, os);
      if prefs.Some? {
        DetachOfRun(prefs.value, db, os);
      }
      assert Daemon(true) in pr.trace <==> Detaches(prefs, db, os);
      LaunchDetach(pr, program, argc, argv, os);
    }
  }

  /** daemonize itself never calls daemon: the detach is the one of _daemonize_prefs. */
  lemma LaunchDetach(pr: PrefsOutcome, program: string, argc: int, argv: seq<string>, os: Outcomes)
    requires 0 <= argc <= |argv|
    ensures Daemon(true) in Launch(pr, program, argc, argv, os).trace <==> Daemon(true) in pr.trace
  {
    var start := [AllocArgs(argc + 2)];
    var exec := Execve(program, ExecArgs(program, argv[..argc]), EnvVector(pr.home));
    var tail :=
      if pr.status != 0 || !os.strdupOk then [FreeArgs]
      else if os.execveOk then [DupProgram(program), exec]
      else [DupProgram(program), exec] + [FreeProgram, FreeArgs] + (if pr.home.Some? then [FreeHome] else []);
    assert Launch(pr, program, argc, argv, os).trace == start + pr.trace + tail;
    assert Daemon(true) !in tail;
  }

  /** A run executes the program at most once: exactly when it gets past
      the strdup, with the copy of the name and the operands as arguments
      and the HOME string of the acting entry as the environment. */
  lemma ExecOfRun(prefs: Option<DaemonizePrefs>, program: string, argc: int, argv: seq<string>,
                  db: IdentityDb, os: Outcomes)
    requires 0 <= argc <= |argv|
    ensures Select(Daemonize(prefs, program, argc, argv, db, os).trace, IsExec)
         == (if ReachesExec(prefs, db, os)
             then [Execve(program, ExecArgs(program, argv[..argc]), EnvVector(ExecHome(prefs, db, os)))]
             else [])
  {
    PrefsStepContract(prefs, db, os);
    if os.argsMallocOk {
      LaunchExec(PrefsStep(prefs, db, os), program, argc, argv, os);
    }
  }

  lemma LaunchExec(pr: PrefsOutcome, program: string, argc: int, argv: seq<string>, os: Outcomes)
    requires 0 <= argc <= |argv| && PrefsContract(pr)
    ensures Select(Launch(pr, program, argc, argv, os).trace, IsExec)
         == (if pr.status == 0 && os.strdupOk
             then [Execve(program, ExecArgs(program, argv[..argc]), EnvVector(pr.home))]
             else [])
  {
    var t := [AllocArgs(argc + 2)] + pr.trace;
    SelectNone([AllocArgs(argc + 2)], IsExec);
    SelectAppend([AllocArgs(argc + 2)], pr.trace, IsExec);
    if pr.status != 0 || !os.strdupOk {
      assert Launch(pr, program, argc, argv, os).trace == t + [FreeArgs];
      SelectNone([FreeArgs], IsExec);
      SelectAppend(t, [FreeArgs], IsExec);
    } else {
      LaunchExecReached(pr, program, argc, argv, os, t);
    }
  }

  lemma LaunchExecReached(pr: PrefsOutcome, program: string, argc: int, argv: seq<string>, os: Outcomes,
                          t: seq<Effect>)
    requires 0 <= argc <= |argv| && pr.status == 0 && os.strdupOk
    requires t == [AllocArgs(argc + 2)] + pr.trace && Select(t, IsExec) == []
    ensures Select(Launch(pr, program, argc, argv, os).trace, IsExec)
         == [Execve(program, ExecArgs(program, argv[..argc]), EnvVector(pr.home))]
  {
    var exec := Execve(program, ExecArgs(program, argv[..argc]), EnvVector(pr.home));
    var tail := if os.execveOk then [] else [FreeProgram, FreeArgs] + (if pr.home.Some? then [FreeHome] else []);
    assert Launch(pr, program, argc, argv, os).trace == t + ([DupProgram(program), exec] + tail);
    ExecOnce(DupProgram(program), exec, tail);
    SelectAppend(t, [DupProgram(program), exec] + tail, IsExec);
  }

  /** The effects from the strdup on: the execve is the one exec among them. */
  lemma ExecOnce(d: Effect, exec: Effect, tail: seq<Effect>)
    requires d.DupProgram? && exec.Execve?
    requires forall e <- tail :: e == FreeProgram || e == FreeArgs || e == FreeHome
    ensures Select([d, exec] + tail, IsExec) == [exec]
  {
    assert [d, exec] + tail == [d] + [exec] + tail;
    forall i | 0 <= i < |tail| ensures !IsExec(tail[i]) {
      assert tail[i] in tail;
    }
    SelectMiddle([d], [exec], tail, IsExec);
  }

  /** Every run that returns has released all it acquired, except for the
      HOME string when the strdup fails. */
  lemma ExitReleasesAll(prefs: Option<DaemonizePrefs>, program: string, argc: int, argv: seq<string>,
                        db: IdentityDb, os: Outcomes)
    requires 0 <= argc <= |argv|
    requires Daemonize(prefs, program, argc, argv, db, os).ending.Exited?
    requires !LeaksHome(prefs, db, os)
    ensures AllReleased(Daemonize(prefs, program, argc, argv, db, os).trace)
  {
    PrefsStepContract(prefs, db, os);
    if os.argsMallocOk {
      LaunchReleases(PrefsStep(prefs, db, os), program, argc, argv, os);
    }
  }

  lemma LaunchReleases(pr: PrefsOutcome, program: string, argc: int, argv: seq<string>, os: Outcomes)
    requires 0 <= argc <= |argv| && PrefsContract(pr)
    requires Launch(pr, program, argc, argv, os).ending.Exited?
    requires !(pr.status == 0 && !os.strdupOk && pr.home.Some?)
    ensures AllReleased(Launch(pr, program, argc, argv, os).trace)
  {
    var exec := Execve(program, ExecArgs(program, argv[..argc]), EnvVector(pr.home));
    var u :=
      if pr.status != 0 || !os.strdupOk then [FreeArgs]
      else [DupProgram(program), exec, FreeProgram, FreeArgs];
    var h := if pr.home.Some? then [FreeHome] else [];
    var t := [AllocArgs(argc + 2)] + pr.trace + (u + h);
    assert Launch(pr, program, argc, argv, os).trace == t;
    forall res ensures Released(t, res) == Acquired(t, res) {
      ReturnCounts(pr, argc + 2, u, res);
    }
  }

  /** One resource over a returning run: the argument vector, the prefs
      effects, and the frees that follow. */
  lemma ReturnCounts(pr: PrefsOutcome, slots: nat, u: seq<Effect>, res: Resource)
    requires PrefsContract(pr)
    requires u == [FreeArgs] || (|u| == 4 && u[0].DupProgram? && u[1].Execve? && u[2..] == [FreeProgram, FreeArgs])
    ensures var t := [AllocArgs(slots)] + pr.trace + (u + (if pr.home.Some? then [FreeHome] else []));
      Released(t, res) == Acquired(t, res)
  {
    var h := if pr.home.Some? then [FreeHome] else [];
    CountsAppend([AllocArgs(slots)] + pr.trace, u + h, res);
    CountsAppend([AllocArgs(slots)], pr.trace, res);
    CountsOne(AllocArgs(slots), res);
    PrefsCounts(pr, res);
    TailCounts(u, pr.home.Some?, res);
  }

  /** What _daemonize_prefs leaves held of one resource: the HOME string
      it returns, nothing else. */
  lemma PrefsCounts(pr: PrefsOutcome, res: Resource)
    requires PrefsContract(pr)
    ensures Acquired(pr.trace, res) == Released(pr.trace, res) + (if res == HomeString && pr.home.Some? then 1 else 0)
  {
    assert Holding(Stage(pr.home, false, pr.trace), res) == (if res == HomeString && pr.home.Some? then 1 else 0);
  }

  /** The effects daemonize makes after _daemonize_prefs on a returning
      run: each frees what it acquired along with the argument vector, and
      env[0] when asked. */
  lemma TailCounts(u: seq<Effect>, home: bool, res: Resource)
    requires u == [FreeArgs] || (|u| == 4 && u[0].DupProgram? && u[1].Execve? && u[2..] == [FreeProgram, FreeArgs])
    ensures var tail := u + (if home then [FreeHome] else []);
      Acquired(tail, res) + (if res == ArgsVector || (res == HomeString && home) then 1 else 0)
      == Released(tail, res)
  {
    var h := if home then [FreeHome] else [];
    CountsAppend(u, h, res);
    if home {
      CountsOne(FreeHome, res);
    } else {
      assert h == [];
    }
    if |u| == 4 {
      ExecFailureCounts(u, res);
    } else {
      CountsOne(FreeArgs, res);
    }
  }

  /** The strdup'd copy, the execve that returned, and the two frees of lines 66-67. */
  lemma ExecFailureCounts(u: seq<Effect>, res: Resource)
    requires |u| == 4 && u[0].DupProgram? && u[1].Execve? && u[2..] == [FreeProgram, FreeArgs]
    ensures Acquired(u, res) + (if res == ArgsVector then 1 else 0) == Released(u, res)
  {
    assert u == [u[0]] + [u[1]] + [FreeProgram] + [FreeArgs];
    CountsAppend([u[0]] + [u[1]] + [FreeProgram], [FreeArgs], res);
    CountsAppend([u[0]] + [u[1]], [FreeProgram], res);
    CountsAppend([u[0]], [u[1]], res);
    CountsOne(u[0], res);
    CountsOne(u[1], res);
    CountsOne(FreeProgram, res);
    CountsOne(FreeArgs, res);
  }

  /** When the strdup fails after the HOME string is set, that string is
      the one thing the returning run has not released. */
  lemma StrdupFailureLeaksHome(prefs: Option<DaemonizePrefs>, program: string, argc: int, argv: seq<string>,
                               db: IdentityDb, os: Outcomes)
    requires 0 <= argc <= |argv|
    requires LeaksHome(prefs, db, os)
    ensures Daemonize(prefs, program, argc, argv, db, os).ending == Exited(2)
    ensures Acquired(Daemonize(prefs, program, argc, argv, db, os).trace, HomeString)
         == Released(Daemonize(prefs, program, argc, argv, db, os).trace, HomeString) + 1
    ensures forall res :: res != HomeString ==>
      Acquired(Daemonize(prefs, program, argc, argv, db, os).trace, res)
      == Released(Daemonize(prefs, program, argc, argv, db, os).trace, res)
  {
    PrefsStepContract(prefs, db, os);
    var pr := PrefsStep(prefs, db, os);
    forall res ensures Acquired(Launch(pr, program, argc, argv, os).trace, res)
                       == Released(Launch(pr, program, argc, argv, os).trace, res)
                          + (if res == HomeString then 1 else 0) {
      LaunchLeaks(pr, program, argc, argv, os, res);
    }
  }

  lemma LaunchLeaks(pr: PrefsOutcome, program: string, argc: int, argv: seq<string>, os: Outcomes, res: Resource)
    requires 0 <= argc <= |argv| && PrefsContract(pr)
    requires pr.status == 0 && !os.strdupOk && pr.home.Some?
    ensures Acquired(Launch(pr, program, argc, argv, os).trace, res)
         == Released(Launch(pr, program, argc, argv, os).trace, res) + (if res == HomeString then 1 else 0)
  {
    var t := [AllocArgs(argc + 2)] + pr.trace;
    assert Launch(pr, program, argc, argv, os).trace == t + [FreeArgs];
    StartCounts(argc + 2, pr.trace);
    CountsAppend(t, [FreeArgs], res);
    CountsOne(FreeArgs, res);
  }

  /** When the program replaces the process, the PID file is closed and
      the run holds exactly the argument vector, the copy of the program
      name and the HOME string it passes in the environment. */
  lemma ExecHoldsOnlyItsVectors(prefs: Option<DaemonizePrefs>, program: string, argc: int, argv: seq<string>,
                                db: IdentityDb, os: Outcomes)
    requires 0 <= argc <= |argv|
    requires Daemonize(prefs, program, argc, argv, db, os).ending == Replaced
    ensures Acquired(Daemonize(prefs, program, argc, argv, db, os).trace, PidFile)
         == Released(Daemonize(prefs, program, argc, argv, db, os).trace, PidFile)
    ensures forall res :: res != PidFile ==>
      Acquired(Daemonize(prefs, program, argc, argv, db, os).trace, res)
      == Released(Daemonize(prefs, program, argc, argv, db, os).trace, res)
         + (if res != HomeString || ExecHome(prefs, db, os).Some? then 1 else 0)
  {
    PrefsStepContract(prefs, db, os);
    var pr := PrefsStep(prefs, db, os);
    var t := Daemonize(prefs, program, argc, argv, db, os).trace;
    assert os.argsMallocOk;
    assert t == Launch(pr, program, argc, argv, os).trace;
    assert pr.status == 0 && pr.home == ExecHome(prefs, db, os);
    forall res ensures Acquired(t, res) == Released(t, res)
                       + (if res == PidFile || (res == HomeString && pr.home.None?) then 0 else 1) {
      LaunchHolds(pr, program, argc, argv, os, res);
    }
  }

  lemma LaunchHolds(pr: PrefsOutcome, program: string, argc: int, argv: seq<string>, os: Outcomes, res: Resource)
    requires 0 <= argc <= |argv| && PrefsContract(pr)
    requires Launch(pr, program, argc, argv, os).ending == Replaced
    ensures Acquired(Launch(pr, program, argc, argv, os).trace, res)
         == Released(Launch(pr, program, argc, argv, os).trace, res)
            + (if res == PidFile || (res == HomeString && pr.home.None?) then 0 else 1)
  {
    var t := [AllocArgs(argc + 2)] + pr.trace;
    var d := DupProgram(program);
    var exec := Execve(program, ExecArgs(program, argv[..argc]), EnvVector(pr.home));
    assert Launch(pr, program, argc, argv, os).trace == t + ([d] + [exec]);
    CountsAppend([AllocArgs(argc + 2)], pr.trace, res);
    CountsOne(AllocArgs(argc + 2), res);
    PrefsCounts(pr, res);
    CountsAppend(t, [d] + [exec], res);
    CountsAppend([d], [exec], res);
    CountsOne(d, res);
    CountsOne(exec, res);
  }

  /** The argument vector allocated before _daemonize_prefs runs adds one
      acquisition of its own. */
  lemma StartCounts(slots: nat, t: seq<Effect>)
    ensures forall res :: Acquired([AllocArgs(slots)] + t, res)
                          == Acquired(t, res) + (if res == ArgsVector then 1 else 0)
    ensures forall res :: Released([AllocArgs(slots)] + t, res) == Released(t, res)
  {
    forall res ensures Acquired([AllocArgs(slots)] + t, res)
                       == Acquired(t, res) + (if res == ArgsVector then 1 else 0)
               ensures Released([AllocArgs(slots)] + t, res) == Released(t, res) {
      CountsAppend([AllocArgs(slots)], t, res);
      CountsSnoc([], AllocArgs(slots));
      assert [] + [AllocArgs(slots)] == [AllocArgs(slots)];
    }
  }
}

=== FILE: wrappers.dfy ===
/** Optional values: the model's stand-in for a C pointer that may be NULL
    and for a local variable that may not have been assigned yet. */
module Wrappers {

  datatype Option<+T> = None | Some(value: T)
}
